=== FILE: README.md ===
# prism-review in Dafny

A model of the review pipeline of prism-review, a command-line tool that
fetches a GitHub pull request, asks a language model for a structured review
(summary, risks, suggestions, test gaps) and posts that review as a PR
comment, updating its earlier comment when asked to.

The model covers the deterministic core, one module per source file:

- `Types` — the review records and the four label unions (file status, risk
  severity, suggestion category, test-gap priority). Each union has a label
  parser proved to accept exactly its labels. Records keep labels as the
  strings that arrived, because the program casts GitHub's and the model's
  labels without checking them; `WellTypedPullRequest` / `WellTypedResult`
  state the declared typing.
- `Parser` — `parsePrReference` with both regular expressions matched by
  hand. Each matcher is tied to a declarative grammar (`UrlShape`,
  `ShortShape`) in both directions. It also models `truncate`, with
  JavaScript's negative `slice` index, and `pluralize`, with `??`.
- `Settings` — the stored configuration, its schema defaults and the
  credential lookups (stored value `||` environment value, else an error).
- `ConfigCommand` — `config set`: the key whitelist, `parseInt(value, 10)`
  with its white-space, sign and digit-run rules, the positive-number check,
  and `maskSensitive`.
- `GitHub` — mapping the REST responses to a `PullRequest`, and the
  first-match search for the review marker among the PR comments.
- `Analyzer` — the user prompt, the greedy JSON-object extraction from the
  reply, the parse-failure excerpt, the model-id fallback and the assembly of
  the `ReviewResult`.
- `CommentCommand` — the publish decision of `prism comment`. It parses,
  fetches, stops on an empty file list, analyzes, renders, then updates or
  posts. The result is the trace of remote calls made, plus how the run ended.

Network calls (Octokit, the Anthropic messages API), `JSON.parse`, the GitHub
renderer `formatForGitHub` and the clock are function-typed or plain
parameters. `CommentCommand.Wire` assembles the command's services from them
the way the program does. `Wrappers` holds `Option`/`Result`. `Text` holds
the JavaScript string operations the program calls (`includes`, `join`,
`slice`), decimal digits, and the model's own prefix and character-search
helpers, with which the program's regular expressions are matched by hand.

Two behaviours of the code are easy to misread:

- For `maxLength < 3`, `truncate` returns more than `maxLength` characters,
  because the end index of `slice` goes negative (`Parser.TruncateSmallLimits`).
- `/\{[\s\S]*\}/` takes everything from the first `{` through the last `}`,
  balanced or not (`Analyzer.JsonSpan`).

## Model

| member | source | states |
|---|---|---|
| Types.ParseStatus | src/types/index.ts:24 | a status label is accepted exactly when it is one of added/removed/modified/renamed, and reads back to the same label |
| Types.StatusRoundTrip | src/types/index.ts:24 | every file status survives printing and re-reading |
| Types.ParseSeverity | src/types/index.ts:31 | severity ranges over exactly critical/high/medium/low |
| Types.SeverityRoundTrip | src/types/index.ts:31 | every severity survives printing and re-reading |
| Types.ParseCategory | src/types/index.ts:44 | category ranges over exactly the five labels, `best-practice` included |
| Types.CategoryRoundTrip | src/types/index.ts:44 | every category survives printing and re-reading |
| Types.ParsePriority | src/types/index.ts:52 | priority ranges over exactly high/medium/low |
| Types.PriorityRoundTrip | src/types/index.ts:52 | every priority survives printing and re-reading |
| Types.WellTypedIffParsable | src/types/index.ts:24-64 | a record is well typed exactly when every status, severity, category and priority label it carries reads as a member of its union |
| Parser.MatchUrl | src/utils/parser.ts:3-4 | a URL-form match is an optional `http(s)://`, an optional `www.`, `github.com/`, two slash-free segments, `pull/`, a maximal digit run and any rest not starting with a digit |
| Parser.MatchUrlComplete | src/utils/parser.ts:3-4 | every decomposition of the input with the URL shape is the one found, so the matcher accepts exactly the URL grammar and its groups are unique |
| Parser.MatchShort | src/utils/parser.ts:5 | a short-form match is the whole input as slash-free owner, `/`, slash-free repo, `#`, digits to the end |
| Parser.MatchShortComplete | src/utils/parser.ts:5 | every short-shape decomposition is the one found; with a `#` inside the repo the number is the run after the last `#` |
| Parser.InvalidReference | src/utils/parser.ts:28-31 | the message is `Invalid PR reference: "`, the input, then the usage hint; `InvalidReferenceInjective` shows it names the input unambiguously |
| Parser.InvalidReferenceInjective | src/utils/parser.ts:28-31 | different inputs give different rejection messages |
| Parser.ParsePrReference | src/utils/parser.ts:7-32 | a parsed reference comes from a URL-shape or short-shape decomposition, with the number the base-10 value of the digits; a rejection carries the `Invalid PR reference: "<input>". Use format: …` message |
| Parser.ParseUrlForm | src/utils/parser.ts:9-16 | every URL-form input parses to its owner, repo and number, whatever text follows the digits |
| Parser.GrammarsDisjoint | src/utils/parser.ts:9-26 | no input has both shapes, so trying the URL form first never hides a short-form reading |
| Parser.ParseShortForm | src/utils/parser.ts:18-26 | every short-form input parses to its owner, repo and number |
| Parser.ParseRejectsIff | src/utils/parser.ts:28-31 | an input is rejected exactly when it has neither shape |
| Parser.ParseRejectsWithoutHash | src/utils/parser.ts:28-31 | text with at most one slash and no `#` is rejected |
| Parser.ParseRejectExamples | tests/parser.test.ts:41-45 | `invalid`, `owner/repo` and `123` are rejected |
| Parser.ParseUrlExample | tests/parser.test.ts:5-12 | `https://github.com/owner/repo/pull/123` parses to owner/repo/123 |
| Parser.ParseTrailingExample | src/utils/parser.ts:4 | a URL followed by `/files` parses as the bare URL, since only the start is anchored |
| Parser.ParseShortExample | tests/parser.test.ts:47-54 | `org-name/repo-name.js#42` keeps the dots and hyphens of owner and repo |
| Parser.Truncate | src/utils/parser.ts:34-37 | text that fits comes back unchanged; otherwise, for a limit of at least 3, the result has exactly the limit's length and is the text's first `limit-3` characters plus `...` |
| Parser.TruncateUnchangedIff | src/utils/parser.ts:34-37 | for a positive limit the text comes back unchanged exactly when it fits, and a shortened result ends in `...` |
| Parser.TruncateSmallLimits | src/utils/parser.ts:36 | below a limit of 3 the result is longer than the limit (`hello`, 2 gives `hell...`) |
| Parser.TruncateExamples | tests/parser.test.ts:57-69 | the test cases: `hello` at 10 and at 5 unchanged, `hello world` at 8 gives `hello...` |
| Parser.Pluralize | src/utils/parser.ts:39-41 | count 1 gives the singular; otherwise the supplied plural, even an empty one, else singular plus `s` |
| Parser.PluralizeSingularIff | src/utils/parser.ts:40 | unless the plural supplied is the singular itself, the singular comes back exactly when the count is 1 |
| Parser.PluralizeExamples | tests/parser.test.ts:71-86 | the test cases for `file` and `person`/`people` |
| Settings.InitialStore | src/utils/config.ts:6-24 | a fresh store has no credentials, `defaultModel` `claude-sonnet-4-20250514` and `maxFilesPerReview` 50 |
| Settings.Credential | src/utils/config.ts:51-69 | a non-empty stored value wins, else a non-empty environment value, else the error; a returned credential is never empty |
| Settings.AnthropicApiKey | src/utils/config.ts:51-59 | a non-empty stored key wins; otherwise a non-empty `ANTHROPIC_API_KEY`; otherwise the "not configured" error, which arises exactly when both are absent or empty; a returned key is never empty |
| Settings.GitHubToken | src/utils/config.ts:61-69 | the same rule for the token: a non-empty stored token wins over `GITHUB_TOKEN`, and the error has its own message |
| Settings.EmptyStoredFallsThrough | src/utils/config.ts:52 | an empty stored key behaves like an absent one |
| ConfigCommand.ParseKey | src/cli/commands/config.ts:11-16 | a key is accepted exactly when it is one of the four listed names |
| ConfigCommand.KeyRoundTrip | src/cli/commands/config.ts:11-18 | every key survives printing and re-reading |
| ConfigCommand.ParseInt | src/cli/commands/config.ts:50 | `parseInt(value, 10)` is NaN exactly when, after leading white space, the text does not start with a digit or a sign and a digit; a number after `-` is at most 0, any other at least 0 |
| ConfigCommand.ParseIntOfNat | src/cli/commands/config.ts:50 | `parseInt` reads a number's decimal text back, ignoring what follows the digits |
| ConfigCommand.ParseIntNegative | src/cli/commands/config.ts:50 | a leading minus sign negates, so `-5` parses (and is later rejected as < 1) |
| ConfigCommand.ParseIntSkipsWhitespace | src/cli/commands/config.ts:50 | leading white space does not change the parsed number |
| ConfigCommand.MaskSensitive | src/cli/commands/config.ts:72-87 | absent reads `(not set)`; a secret of at most 8 characters is `********`; a longer secret is 12 characters: its first 4, `****`, its last 4; other keys are shown verbatim |
| ConfigCommand.MaskHidesMiddle | src/cli/commands/config.ts:83 | two long secrets that agree on their first and last four characters mask alike |
| ConfigCommand.ExitCode | src/cli/commands/config.ts:43-53 | the command exits with 1 exactly when the setting is rejected |
| ConfigCommand.ConfigSet | src/cli/commands/config.ts:35-61 | unknown keys are rejected with nothing stored and exit code 1; `maxFilesPerReview` is stored as the parsed number exactly when it parses to at least 1; other keys store the raw text; no other setting changes; the message shows the masked value |
| GitHub.MapFile | src/core/github.ts:33-40 | one listing entry becomes a file entry that `UnmapFile` turns back into the same entry |
| GitHub.MapFiles | src/core/github.ts:33-40 | the file list is an element-wise map of the listing: same length, same order, every field kept |
| GitHub.MapFileBijective | src/core/github.ts:33-40 | the file mapping loses nothing in either direction |
| GitHub.Description | src/core/github.ts:45 | the description is the body, or empty when the body is null or empty |
| GitHub.Author | src/core/github.ts:46 | the author is the login, or `unknown` when the user is missing or the login empty; never empty |
| GitHub.MapPullRequest | src/core/github.ts:42-54 | number, title, branches, URL and counts are copied verbatim; description and author take their defaults; files are mapped in order |
| GitHub.MappedStatusesUnchecked | src/core/github.ts:35 | the mapped pull request is well typed exactly when GitHub's statuses are in the union: nothing checks them |
| GitHub.FetchPullRequest | src/core/github.ts:7-55 | the result is the mapping of both responses exactly when the token is available and both calls succeed; otherwise the first failure, token then `pulls.get` then `listFiles`, is returned unchanged |
| GitHub.FirstMarked | src/core/github.ts:87-89 | the position found holds the marker and no earlier comment does; none is found exactly when no body holds it |
| GitHub.FindExistingComment | src/core/github.ts:87-91 | the id returned is that of the first comment whose body contains `<!-- prism-review -->`; null exactly when none does; bodiless comments never match |
| GitHub.FirstMarkedIs | src/core/github.ts:87-89 | the first marked position is determined by the markings up to it |
| GitHub.FindIgnoresLaterComments | src/core/github.ts:87-91 | comments after the first marked one do not change the answer |
| Analyzer.PatchedFiles | src/core/analyzer.ts:65-66 | exactly the files whose patch is present and non-empty are kept |
| Analyzer.PatchedFilesAppend | src/core/analyzer.ts:65-66 | filtering distributes over concatenation, so kept files stay in their original order |
| Analyzer.PatchedFilesIdempotent | src/core/analyzer.ts:65-66 | filtering twice is filtering once |
| Analyzer.PatchedFilesSkip | src/core/analyzer.ts:65-66 | a file with an absent or empty patch has no effect on the kept files |
| Analyzer.FileSection | src/core/analyzer.ts:67-73 | a section opens with a `### ` heading naming the file and ends by closing the `diff` fence |
| Analyzer.FileSectionShows | src/core/analyzer.ts:68-73 | a file section contains the file name, the status, `+additions -deletions` and the patch |
| Analyzer.FilesContent | src/core/analyzer.ts:65-75 | the joined sections contain the whole section of every file with a usable patch, and are empty exactly when no file has one |
| Analyzer.DescriptionText | src/core/analyzer.ts:84 | an empty description is replaced by `_No description provided_`, any other is kept |
| Analyzer.BuildUserPrompt | src/core/analyzer.ts:77 | the prompt opens with `## Pull Request: ` and the title |
| Analyzer.PromptShowsEveryPatchedFile | src/core/analyzer.ts:64-95 | every file with a usable patch has its whole section in the prompt |
| Analyzer.PromptShowsPatchedFiles | src/core/analyzer.ts:64-95 | the sections of all files with a usable patch are in the prompt at once |
| Analyzer.PromptShowsDescription | src/core/analyzer.ts:83-84 | the description, or its placeholder, is in the prompt |
| Analyzer.PromptIgnoresUnpatchedFile | src/core/analyzer.ts:64-95 | adding a file without a usable patch leaves the prompt unchanged |
| Analyzer.JsonSpan | src/core/analyzer.ts:130-133 | the match runs from the first `{` to the last `}`; there is none exactly when no `{` has a `}` after it |
| Analyzer.JsonCandidate | src/core/analyzer.ts:130-133 | the candidate is exactly the text from the first `{` through the last `}` (the `JsonSpan` range), absent exactly when no `}` follows a `{` |
| Analyzer.CandidateIgnoresProse | src/core/analyzer.ts:130 | prose before and after a single object is dropped |
| Analyzer.ParseFailure | src/core/analyzer.ts:136 | the message is `Failed to parse AI response: ` followed by the text's first 200 characters, or all of a shorter text |
| Analyzer.FirstText | src/core/analyzer.ts:123-126 | the text is that of the first text block; there is none exactly when the reply has no text block |
| Analyzer.ModelId | src/core/analyzer.ts:109 | the configured model when set and non-empty, else `claude-sonnet-4-20250514`; never empty |
| Analyzer.InitialStoreModel | src/utils/config.ts:17 | a fresh store asks for `claude-sonnet-4-20250514` |
| Analyzer.RequestFor | src/core/analyzer.ts:111-121 | the request carries the key, the model, 4096 max tokens and the built user prompt, which shows the description and the whole section of every file with a usable patch |
| Analyzer.ReadOutput | src/core/analyzer.ts:128-137 | the output is the parse of the candidate; a missing candidate or failed parse gives the excerpt message |
| Analyzer.ReadReply | src/core/analyzer.ts:123-137 | a reply without text gives `No text response from AI`; otherwise the first text block is read |
| Analyzer.Assemble | src/core/analyzer.ts:139-147 | the result keeps `pr` and `summary`, records the model and time, passes present finding arrays through and turns absent ones into `[]` |
| Analyzer.AssembleRoundTrip | src/core/analyzer.ts:139-147 | assembly loses nothing a result holds, and an absent array assembles like an empty one |
| Analyzer.LabelsPassUnchecked | src/core/analyzer.ts:134-147 | the result is well typed exactly when the model's labels, in whichever finding arrays are present, were already in the unions: nothing checks them |
| Analyzer.Analyze | src/core/analyzer.ts:104-148 | a missing key is the first error; otherwise one request is made and its reply read; a result keeps `pr`, and its `modelUsed` is the id sent |
| CommentCommand.ExitCode | src/cli/commands/comment.ts:57-63 | the exit code is 1 exactly for a failed run |
| CommentCommand.Publish | src/cli/commands/comment.ts:54-56 | one post of the body, reported by the URL it returned or as a failure carrying its error message |
| CommentCommand.Write | src/cli/commands/comment.ts:44-56 | with `update`, exactly one lookup; a truthy id gives one update of that id and no post; null or 0 falls through to one post; without `update`, one post and no lookup |
| CommentCommand.Proceed | src/cli/commands/comment.ts:23-56 | the fetch comes first; a failed fetch or analysis ends the run as a failure with that error and nothing called after it; zero files end the run with nothing else; at most one lookup and one write, the write last; every write sends the rendering of the successful analysis; updates target the looked-up id |
| CommentCommand.Run | src/cli/commands/comment.ts:12-64 | an invalid reference fails with its message before any remote call and exits with 1 |
| CommentCommand.UpdateFallsBackToPost | src/cli/commands/comment.ts:44-54 | with `update` and no truthy id the run posts exactly as without `update`, plus the lookup |
| CommentCommand.UpdateReplacesPost | src/cli/commands/comment.ts:45-51 | with `update` and a truthy id the run ends in an update of that id with the rendered body, and never posts |
| CommentCommand.WiredUpdateTargetsFirstMarked | src/cli/commands/comment.ts:44-56 | with the services the program builds and `update` set, an analyzed pull request ends in an update of the first comment holding the marker when its id is truthy, and in a post when no comment holds it |
| CommentCommand.MissingTokenStopsAtFetch | src/core/github.ts:7-14 | without a GitHub token the command stops at the fetch with the token error |

## Left out

- `formatForGitHub` (`src/core/formatter.ts`) is not part of this model: it is a parameter whose output is only passed along.
- The Octokit and Anthropic SDK calls are parameters returning a response or an error. So are the lazy Octokit singleton and its token read; after the first successful fetch the later calls reuse the client.
- `JSON.parse` is a partial function parameter. What it does with malformed JSON, and a parsed object whose `summary` is missing or whose finding fields are not arrays, are not modelled: `summary` is always a string and the finding fields are arrays or absent.
- Nothing validates the labels the language model or GitHub sends; the model states this rather than adding a check.
- The `Conf` file on disk, `process.env` and `process.exit` are inputs and an exit code. `configShowCommand`, `configClearCommand` and `configPathCommand` only print or clear the store and are not modelled.
- Logging, chalk colours, ora spinners, commander wiring (`src/cli/index.ts`) and `src/cli/commands/analyze.ts` are console orchestration.
- `generatedAt` is the parameter `now` instead of `new Date()`.
- The text of `SYSTEM_PROMPT` is not modelled; the request carries only key, model, token budget and user prompt.
- The analyzer never applies `maxFilesPerReview`, and neither does the model.
- Races between concurrent commenters, and the `per_page: 100` limit on listed files and comments, are remote behaviour. The listing is whatever the call returned.
- JavaScript numbers are unbounded integers here: digit runs past 2^53 lose no precision, and non-integer counts from the API cannot occur.
- `postPrComment` and `updatePrComment` pass their call's result through and are the `post` and `update` parameters.
- Parser.Truncate: lengths and slice indices count Unicode characters, not the UTF-16 code units JavaScript counts, so text with characters outside the Basic Multilingual Plane (emoji) is measured and cut differently, and a cut through a surrogate pair cannot be expressed.
- ConfigCommand.MaskSensitive: the length test and the first and last four characters count Unicode characters, not UTF-16 code units, so a secret with characters outside the Basic Multilingual Plane is masked differently.
- Analyzer.ParseFailure: the 200-character excerpt counts Unicode characters, not UTF-16 code units, so the excerpt of text with characters outside the Basic Multilingual Plane differs.
- ConfigCommand.MaskSensitive: the grey styling of `(not set)` is dropped, and values are strings, because `config set` only passes strings.

=== FILE: analyzer.dfy ===
/** The data shaping of `src/core/analyzer.ts`: the user prompt built from a
    pull request, the request sent to the language model, the extraction of
    the JSON object from its reply, and the assembly of the `ReviewResult`.

    The model call is the parameter `complete` (what the messages API answered
    for a request, or the error it raised), `JSON.parse` is the partial
    function `parseJson`, and the clock reading for `generatedAt` is `now`. */
module Analyzer {
  import opened Wrappers
  import opened Text
  import opened Types
  import Settings

  const MaxTokens := 4096
  const NoDescriptionPlaceholder := "_No description provided_"
  const NoTextResponse := "No text response from AI"
  const ParseFailurePrefix := "Failed to parse AI response: "
  const ExcerptLength := 200

  // ----- files shown in the prompt -----

  /** `f.patch` is truthy: present and non-empty. */
  predicate HasPatch(f: PullRequestFile) {
    f.patch.Some? && f.patch.value != ""
  }

  /** `files.filter((f) => f.patch)`. */
  function PatchedFiles(files: seq<PullRequestFile>): (r: seq<PullRequestFile>)
    ensures |r| <= |files|
    ensures forall f :: f in r <==> f in files && HasPatch(f)
  {
    if |files| == 0 then []
    else
      var rest := PatchedFiles(files[1..]);
      assert forall f :: f in files <==> f == files[0] || f in files[1..];
      if HasPatch(files[0]) then [files[0]] + rest else rest
  }

  /** Filtering distributes over concatenation, so it keeps the files in
      their original order. */
  lemma {:induction false} PatchedFilesAppend(a: seq<PullRequestFile>, b: seq<PullRequestFile>)
    ensures PatchedFiles(a + b) == PatchedFiles(a) + PatchedFiles(b)
  {
    if |a| == 0 {
      assert a + b == b;
    } else {
      assert (a + b)[1..] == a[1..] + b;
      PatchedFilesAppend(a[1..], b);
    }
  }

  /** Filtering twice is filtering once. */
  lemma {:induction false} PatchedFilesIdempotent(files: seq<PullRequestFile>)
    ensures PatchedFiles(PatchedFiles(files)) == PatchedFiles(files)
  {
    if |files| > 0 {
      var rest := PatchedFiles(files[1..]);
      PatchedFilesIdempotent(files[1..]);
      if HasPatch(files[0]) {
        assert ([files[0]] + rest)[1..] == rest;
      }
    }
  }

  /** A file without a usable patch does not change which files are shown. */
  lemma PatchedFilesSkip(a: seq<PullRequestFile>, f: PullRequestFile, b: seq<PullRequestFile>)
    requires !HasPatch(f)
    ensures PatchedFiles(a + [f] + b) == PatchedFiles(a + b)
  {
    PatchedFilesAppend(a + [f], b);
    PatchedFilesAppend(a, [f]);
    PatchedFilesAppend(a, b);
    assert [f][1..] == [];
  }

  // ----- the prompt -----

  /** `+${additions} -${deletions}`. */
  function StatsLine(additions: nat, deletions: nat): string {
    "+" + NatToString(additions) + " -" + NatToString(deletions)
  }

  /** One file's section: a heading with name and status, the line counts,
      and the patch in a `diff` code fence. */
  function FileSection(f: PullRequestFile): (r: string)
    requires HasPatch(f)
    ensures IsPrefix("### " + f.filename + " (", r)
    ensures |r| >= 4 && r[|r| - 4..] == "\n```"
  {
    var heading := "### " + f.filename + " (";
    var r := heading + f.status + ")\n" + StatsLine(f.additions, f.deletions)
      + "\n\n```diff\n" + f.patch.value + "\n```";
    assert r[..|heading|] == heading;
    r
  }

  /** The section shows the file name, its status, its line counts and its patch. */
  lemma FileSectionShows(f: PullRequestFile)
    requires HasPatch(f)
    ensures Contains(FileSection(f), f.filename)
    ensures Contains(FileSection(f), f.status)
    ensures Contains(FileSection(f), StatsLine(f.additions, f.deletions))
    ensures Contains(FileSection(f), f.patch.value)
  {
    var name := "### " + f.filename;
    var status := name + " (" + f.status;
    var stats := status + ")\n" + StatsLine(f.additions, f.deletions);
    var patch := stats + "\n\n```diff\n" + f.patch.value;
    ContainsSuffix("### ", f.filename);
    ContainsExtendRight(name, " (", f.filename);
    ContainsExtendRight(name + " (", f.status, f.filename);
    ContainsSuffix(name + " (", f.status);
    ContainsExtendRight(status, ")\n", f.filename);
    ContainsExtendRight(status, ")\n", f.status);
    ContainsExtendRight(status + ")\n", StatsLine(f.additions, f.deletions), f.filename);
    ContainsExtendRight(status + ")\n", StatsLine(f.additions, f.deletions), f.status);
    ContainsSuffix(status + ")\n", StatsLine(f.additions, f.deletions));
    ContainsExtendRight(stats, "\n\n```diff\n", f.filename);
    ContainsExtendRight(stats, "\n\n```diff\n", f.status);
    ContainsExtendRight(stats, "\n\n```diff\n", StatsLine(f.additions, f.deletions));
    ContainsExtendRight(stats + "\n\n```diff\n", f.patch.value, f.filename);
    ContainsExtendRight(stats + "\n\n```diff\n", f.patch.value, f.status);
    ContainsExtendRight(stats + "\n\n```diff\n", f.patch.value, StatsLine(f.additions, f.deletions));
    ContainsSuffix(stats + "\n\n```diff\n", f.patch.value);
    ContainsExtendRight(patch, "\n```", f.filename);
    ContainsExtendRight(patch, "\n```", f.status);
    ContainsExtendRight(patch, "\n```", StatsLine(f.additions, f.deletions));
    ContainsExtendRight(patch, "\n```", f.patch.value);
  }

  /** The sections of already filtered files, in order. */
  function Sections(patched: seq<PullRequestFile>): (r: seq<string>)
    requires forall f :: f in patched ==> HasPatch(f)
    ensures |r| == |patched|
    ensures forall i :: 0 <= i < |patched| ==> r[i] == FileSection(patched[i])
  {
    seq(|patched|, i requires 0 <= i < |patched| => FileSection(patched[i]))
  }

  /** `filesContent`: the sections of the patched files, separated by a blank line. */
  function FilesContent(files: seq<PullRequestFile>): (r: string)
    ensures r == "" <==> PatchedFiles(files) == []
    ensures forall f :: f in files && HasPatch(f) ==> Contains(r, FileSection(f))
  {
    var patched := PatchedFiles(files);
    var sections := Sections(patched);
    JoinContainsAll(sections, "\n\n");
    JoinStartsWith(sections, "\n\n");
    assert forall f :: f in files && HasPatch(f) ==> exists k :: 0 <= k < |patched| && sections[k] == FileSection(f);
    Join(sections, "\n\n")
  }

  /** `pr.description || '_No description provided_'`. */
  function DescriptionText(description: string): (r: string)
    ensures r != ""
    ensures description != "" ==> r == description
    ensures description == "" ==> r == NoDescriptionPlaceholder
  {
    if description != "" then description else NoDescriptionPlaceholder
  }

  /** Title, author, branches and stats, up to the description heading. */
  function PromptHeader(pr: PullRequest): string {
    "## Pull Request: " + pr.title + PromptDetails(pr)
  }

  function PromptDetails(pr: PullRequest): string {
    "\n\n**Author:** " + pr.author
      + "\n**Branch:** " + pr.headBranch + " \U{2192} " + pr.baseBranch
      + "\n**Stats:** " + NatToString(pr.changedFiles) + " files changed, "
      + StatsLine(pr.additions, pr.deletions)
      + "\n\n### Description\n"
  }

  const ChangedFilesHeading := "\n\n---\n\n## Changed Files\n\n"
  const PromptFooter := "\n\n---\n\nAnalyze these changes and provide your structured review as JSON."

  /** `buildUserPrompt(pr)`: it opens with the title line. */
  function BuildUserPrompt(pr: PullRequest): (r: string)
    ensures IsPrefix("## Pull Request: " + pr.title, r)
  {
    var title := "## Pull Request: " + pr.title;
    var head := PromptHeader(pr);
    var s1 := head + DescriptionText(pr.description);
    var s2 := s1 + ChangedFilesHeading;
    var s3 := s2 + FilesContent(pr.files);
    PrefixExtend(title, title, PromptDetails(pr));
    PrefixExtend(title, head, DescriptionText(pr.description));
    PrefixExtend(title, s1, ChangedFilesHeading);
    PrefixExtend(title, s2, FilesContent(pr.files));
    PrefixExtend(title, s3, PromptFooter);
    s3 + PromptFooter
  }

  /** Every file with a usable patch has its whole section in the prompt. */
  lemma PromptShowsEveryPatchedFile(pr: PullRequest, f: PullRequestFile)
    requires f in pr.files && HasPatch(f)
    ensures Contains(BuildUserPrompt(pr), FileSection(f))
  {
    var before := PromptHeader(pr) + DescriptionText(pr.description) + ChangedFilesHeading;
    ContainsExtendLeft(before, FilesContent(pr.files), FileSection(f));
    ContainsExtendRight(before + FilesContent(pr.files), PromptFooter, FileSection(f));
  }

  /** All files with a usable patch at once. */
  lemma PromptShowsPatchedFiles(pr: PullRequest)
    ensures forall f :: f in pr.files && HasPatch(f) ==> Contains(BuildUserPrompt(pr), FileSection(f))
  {
    forall f | f in pr.files && HasPatch(f)
      ensures Contains(BuildUserPrompt(pr), FileSection(f))
    {
      PromptShowsEveryPatchedFile(pr, f);
    }
  }

  /** The description, or its placeholder, is in the prompt. */
  lemma PromptShowsDescription(pr: PullRequest)
    ensures Contains(BuildUserPrompt(pr), DescriptionText(pr.description))
  {
    var d := DescriptionText(pr.description);
    var s1 := PromptHeader(pr) + d;
    ContainsSuffix(PromptHeader(pr), d);
    ContainsExtendRight(s1, ChangedFilesHeading, d);
    ContainsExtendRight(s1 + ChangedFilesHeading, FilesContent(pr.files), d);
    ContainsExtendRight(s1 + ChangedFilesHeading + FilesContent(pr.files), PromptFooter, d);
  }

  /** Files without a usable patch leave the prompt as it is. */
  lemma PromptIgnoresUnpatchedFile(
    pr: PullRequest, a: seq<PullRequestFile>, f: PullRequestFile, b: seq<PullRequestFile>)
    requires !HasPatch(f)
    ensures BuildUserPrompt(pr.(files := a + [f] + b)) == BuildUserPrompt(pr.(files := a + b))
  {
    PatchedFilesSkip(a, f, b);
  }

  // ----- the JSON candidate -----

  /** Where `/\{[\s\S]*\}/` matches: from the first `{` through the last `}`,
      as a half-open range. */
  function JsonSpan(text: string): (r: Option<(nat, nat)>)
    ensures r.Some? ==> r.value.0 < r.value.1 <= |text|
    ensures r.Some? ==> text[r.value.0] == '{' && text[r.value.1 - 1] == '}' && r.value.0 < r.value.1 - 1
    ensures r.Some? ==> forall k :: 0 <= k < r.value.0 ==> text[k] != '{'
    ensures r.Some? ==> forall k :: r.value.1 <= k < |text| ==> text[k] != '}'
    ensures r.None? <==> !exists i, j :: 0 <= i < j < |text| && text[i] == '{' && text[j] == '}'
  {
    match (FirstIndexOf(text, '{'), LastIndexOf(text, '}'))
    case (Some(i), Some(j)) => if i < j then Some((i, j + 1)) else None
    case _ => None
  }

  /** `jsonMatch[0]`, when the pattern matches. */
  function JsonCandidate(text: string): (r: Option<string>)
    ensures r.Some? ==> |r.value| >= 2 && r.value[0] == '{' && r.value[|r.value| - 1] == '}'
    ensures r.Some? ==> Contains(text, r.value)
    ensures r.Some? <==> JsonSpan(text).Some?
    ensures r.Some? ==> r.value == text[JsonSpan(text).value.0..JsonSpan(text).value.1]
    ensures r.None? <==> !exists i, j :: 0 <= i < j < |text| && text[i] == '{' && text[j] == '}'
  {
    match JsonSpan(text)
    case None => None
    case Some((start, end)) =>
      assert IsPrefix(text[start..end], text[start..]);
      Some(text[start..end])
  }

  /** Prose around a single object is dropped: with no `{` before it and no
      `}` after it, the candidate is the object itself. */
  lemma CandidateIgnoresProse(before: string, body: string, after: string)
    requires forall k :: 0 <= k < |before| ==> before[k] != '{'
    requires forall k :: 0 <= k < |after| ==> after[k] != '}'
    ensures JsonCandidate(before + ("{" + body + "}") + after) == Some("{" + body + "}")
  {
    var obj := "{" + body + "}";
    var text := before + obj + after;
    assert text[|before|] == '{';
    assert text[|before| + |obj| - 1] == '}';
    assert forall k :: 0 <= k < |before| ==> text[k] == before[k];
    assert forall k :: |before| + |obj| <= k < |text| ==> text[k] == after[k - |before| - |obj|];
    var span := JsonSpan(text);
    var (start, end) := span.value;
    assert start == |before|;
    assert end == |before| + |obj|;
    assert text[start..end] == obj;
  }

  // ----- the failure message -----

  /** `Failed to parse AI response: ${text.slice(0, 200)}`. */
  function ParseFailure(text: string): (r: string)
    ensures IsPrefix(ParseFailurePrefix, r)
    ensures var excerpt := r[|ParseFailurePrefix|..];
            && |excerpt| == (if |text| <= ExcerptLength then |text| else ExcerptLength)
            && IsPrefix(excerpt, text)
  {
    var r := ParseFailurePrefix + Slice(text, 0, ExcerptLength);
    assert r[|ParseFailurePrefix|..] == Slice(text, 0, ExcerptLength);
    r
  }

  // ----- the model call -----

  /** A content block of the reply; only text blocks carry a `text`. */
  datatype ContentBlock = TextBlock(text: string) | OtherBlock(kind: string)

  /** Position of the first text block. */
  function FirstTextIndex(blocks: seq<ContentBlock>): (r: Option<nat>)
    ensures r.Some? ==> r.value < |blocks| && blocks[r.value].TextBlock?
    ensures r.Some? ==> forall j :: 0 <= j < r.value ==> !blocks[j].TextBlock?
    ensures r.None? <==> forall k :: 0 <= k < |blocks| ==> !blocks[k].TextBlock?
  {
    if |blocks| == 0 then None
    else if blocks[0].TextBlock? then Some(0)
    else match FirstTextIndex(blocks[1..])
      case None => None
      case Some(k) => Some(k + 1)
  }

  /** The text of the first text block (`content.find(...)`), if any. */
  function FirstText(blocks: seq<ContentBlock>): (r: Option<string>)
    ensures r.None? <==> forall k :: 0 <= k < |blocks| ==> !blocks[k].TextBlock?
    ensures r.Some? ==> exists k :: 0 <= k < |blocks| && blocks[k] == TextBlock(r.value)
                                    && forall j :: 0 <= j < k ==> !blocks[j].TextBlock?
  {
    match FirstTextIndex(blocks)
    case None => None
    case Some(k) => Some(blocks[k].text)
  }

  /** The messages-API request: key, model, token budget and the user prompt
      (the fixed system prompt is not modelled). */
  datatype Request = Request(apiKey: string, model: string, maxTokens: nat, prompt: string)

  /** `getConfigValue('defaultModel') || 'claude-sonnet-4-20250514'`. */
  function ModelId(store: Settings.Store): (r: string)
    ensures r != ""
    ensures Settings.Truthy(store.defaultModel) ==> r == store.defaultModel.value
    ensures !Settings.Truthy(store.defaultModel) ==> r == Settings.DefaultModelId
  {
    if Settings.Truthy(store.defaultModel) then store.defaultModel.value else Settings.DefaultModelId
  }

  /** A fresh store asks for the default model. */
  lemma InitialStoreModel()
    ensures ModelId(Settings.InitialStore()) == Settings.DefaultModelId
  {}

  // ----- assembling the result -----

  /** What `JSON.parse` returned, cast to `AnalyzerOutput`: the finding
      arrays may be absent (`None`). */
  datatype AnalyzerOutput = AnalyzerOutput(
    summary: string,
    risks: Option<seq<Risk>>,
    suggestions: Option<seq<Suggestion>>,
    testGaps: Option<seq<TestGap>>)

  /** The returned object: absent finding arrays become `[]`. */
  function Assemble(pr: PullRequest, out: AnalyzerOutput, model: string, now: int): (r: ReviewResult)
    ensures r.pr == pr && r.summary == out.summary && r.modelUsed == model && r.generatedAt == now
    ensures out.risks.None? ==> r.risks == []
    ensures out.risks.Some? ==> r.risks == out.risks.value
    ensures out.suggestions.None? ==> r.suggestions == []
    ensures out.suggestions.Some? ==> r.suggestions == out.suggestions.value
    ensures out.testGaps.None? ==> r.testGaps == []
    ensures out.testGaps.Some? ==> r.testGaps == out.testGaps.value
  {
    ReviewResult(
      pr, out.summary,
      out.risks.GetOr([]), out.suggestions.GetOr([]), out.testGaps.GetOr([]),
      now, model)
  }

  /** The output a result could have been assembled from, with every array present. */
  function Disassemble(r: ReviewResult): AnalyzerOutput {
    AnalyzerOutput(r.summary, Some(r.risks), Some(r.suggestions), Some(r.testGaps))
  }

  /** Assembly loses nothing a result holds, and an absent array and an
      empty one assemble alike. */
  lemma AssembleRoundTrip(r: ReviewResult, out: AnalyzerOutput)
    ensures Assemble(r.pr, Disassemble(r), r.modelUsed, r.generatedAt) == r
    ensures Assemble(r.pr, out.(risks := None), r.modelUsed, r.generatedAt)
         == Assemble(r.pr, out.(risks := Some([])), r.modelUsed, r.generatedAt)
  {}

  /** The labels of the findings reach the result as the model wrote them:
      the result is well typed exactly when the model kept to the unions. */
  lemma LabelsPassUnchecked(pr: PullRequest, out: AnalyzerOutput, model: string, now: int)
    ensures WellTypedResult(Assemble(pr, out, model, now)) <==>
      && WellTypedPullRequest(pr)
      && (forall x :: x in out.risks.GetOr([]) ==> x.severity in SeverityLabels)
      && (forall x :: x in out.suggestions.GetOr([]) ==> x.category in CategoryLabels)
      && (forall x :: x in out.testGaps.GetOr([]) ==> x.priority in PriorityLabels)
  {}

  // ----- analyzePullRequest -----

  /** The request sent for a pull request with a given key and model. */
  function RequestFor(pr: PullRequest, apiKey: string, model: string): (q: Request)
    ensures q.maxTokens == 4096 && q.apiKey == apiKey && q.model == model
    ensures q.prompt == BuildUserPrompt(pr)
    ensures Contains(q.prompt, DescriptionText(pr.description))
    ensures forall f :: f in pr.files && HasPatch(f) ==> Contains(q.prompt, FileSection(f))
  {
    PromptShowsDescription(pr);
    PromptShowsPatchedFiles(pr);
    Request(apiKey, model, MaxTokens, BuildUserPrompt(pr))
  }

  /** The JSON object in the reply text, through `parseJson`; any failure of
      extraction or parsing becomes the parse-failure message. */
  function ReadOutput(text: string, parseJson: string -> Option<AnalyzerOutput>): (r: Result<AnalyzerOutput>)
    ensures r.Err? ==> r.error == ParseFailure(text)
    ensures r.Ok? <==> JsonCandidate(text).Some? && parseJson(JsonCandidate(text).value).Some?
    ensures r.Ok? ==> r.value == parseJson(JsonCandidate(text).value).value
  {
    match JsonCandidate(text)
    case None => Err(ParseFailure(text))
    case Some(candidate) =>
      match parseJson(candidate)
      case None => Err(ParseFailure(text))
      case Some(out) => Ok(out)
  }

  /** The reply of the messages API, read: its error, the missing-text
      error, or the output parsed from the first text block. */
  function ReadReply(reply: Result<seq<ContentBlock>>, parseJson: string -> Option<AnalyzerOutput>): (r: Result<AnalyzerOutput>)
    ensures reply.Err? ==> r == Err(reply.error)
    ensures reply.Ok? && FirstText(reply.value).None? ==> r == Err(NoTextResponse)
    ensures reply.Ok? && FirstText(reply.value).Some? ==>
      r == ReadOutput(FirstText(reply.value).value, parseJson)
  {
    match reply
    case Err(e) => Err(e)
    case Ok(blocks) =>
      match FirstText(blocks)
      case None => Err(NoTextResponse)
      case Some(text) => ReadOutput(text, parseJson)
  }

  /** `analyzePullRequest(pr)`: the key is read first, then the model is
      called once with the prompt, and the first failure is the error. */
  function Analyze(
    pr: PullRequest,
    store: Settings.Store,
    env: Settings.Env,
    complete: Request -> Result<seq<ContentBlock>>,
    parseJson: string -> Option<AnalyzerOutput>,
    now: int): (r: Result<ReviewResult>)
    ensures Settings.AnthropicApiKey(store, env).Err? ==> r == Err(Settings.AnthropicKeyMissing)
    ensures r.Ok? ==> r.value.pr == pr && r.value.modelUsed == ModelId(store) && r.value.generatedAt == now
    ensures Settings.AnthropicApiKey(store, env).Ok? ==>
      var request := RequestFor(pr, Settings.AnthropicApiKey(store, env).value, ModelId(store));
      var read := ReadReply(complete(request), parseJson);
      && (read.Err? ==> r == Err(read.error))
      && (read.Ok? ==> r == Ok(Assemble(pr, read.value, ModelId(store), now)))
  {
    match Settings.AnthropicApiKey(store, env)
    case Err(e) => Err(e)
    case Ok(apiKey) =>
      var model := ModelId(store);
      match ReadReply(complete(RequestFor(pr, apiKey, model)), parseJson)
      case Err(e) => Err(e)
      case Ok(out) => Ok(Assemble(pr, out, model, now))
  }
}

=== FILE: comment_command.dfy ===
/** `prism comment <pr> [--update]` from `src/cli/commands/comment.ts`: parse
    the reference, fetch the pull request, stop early when it has no files,
    analyze it, render the review, then update the earlier review comment or
    post a new one.

    Every remote step is a field of `Services`; the run returns the trace of
    remote calls it made, in order, and how it ended. A call that fails ends
    the run with its error message and exit code 1; the spinner and logger
    output are not modelled. */
module CommentCommand {
  import opened Wrappers
  import opened Types
  import Parser
  import Settings
  import GitHub
  import Analyzer

  /** The remote operations the command depends on. `findExisting` is the
      marker search over the listed comments, `format` is the GitHub
      rendering of a review (a pure function whose text is not modelled). */
  datatype Services = Services(
    fetch: ParsedPrUrl -> Result<PullRequest>,
    analyze: PullRequest -> Result<ReviewResult>,
    format: ReviewResult -> string,
    findExisting: ParsedPrUrl -> Result<Option<int>>,
    update: (ParsedPrUrl, int, string) -> Result<string>,
    post: (ParsedPrUrl, string) -> Result<string>)

  /** One remote call, with the arguments it was made with. */
  datatype Call =
    | Fetch(loc: ParsedPrUrl)
    | Analyze(pr: PullRequest)
    | Lookup(loc: ParsedPrUrl)
    | Update(loc: ParsedPrUrl, id: int, body: string)
    | Post(loc: ParsedPrUrl, body: string)

  predicate IsWrite(c: Call) {
    c.Update? || c.Post?
  }

  /** How the run ended: a failure with its message, the early return for a
      pull request without files, or the URL of the written comment. */
  datatype Report = Failed(message: string) | NoFiles | Updated(url: string) | Posted(url: string)

  datatype Outcome = Outcome(trace: seq<Call>, report: Report)

  /** `process.exit(1)` after a failure, a normal return otherwise. */
  function ExitCode(o: Outcome): (code: int)
    ensures code == 1 <==> o.report.Failed?
    ensures code == 0 <==> !o.report.Failed?
  {
    if o.report.Failed? then 1 else 0
  }

  /** An id the `if (existingId)` test accepts: present and not 0. */
  predicate TruthyId(found: Option<int>) {
    found.Some? && found.value != 0
  }

  /** The final `postPrComment`, after the calls in `done`. */
  function Publish(loc: ParsedPrUrl, body: string, done: seq<Call>, s: Services): (o: Outcome)
    ensures o.trace == done + [Post(loc, body)]
    ensures o.report.Failed? <==> s.post(loc, body).Err?
    ensures s.post(loc, body).Err? ==> o.report == Failed(s.post(loc, body).error)
    ensures s.post(loc, body).Ok? ==> o.report == Posted(s.post(loc, body).value)
  {
    match s.post(loc, body)
    case Err(e) => Outcome(done + [Post(loc, body)], Failed(e))
    case Ok(url) => Outcome(done + [Post(loc, body)], Posted(url))
  }

  /** The steps after a successful analysis: look up the earlier comment when
      `update` is set, update it when its id is truthy, post otherwise. */
  function Write(loc: ParsedPrUrl, body: string, done: seq<Call>, update: bool, s: Services): (o: Outcome)
    ensures |o.trace| > |done| && o.trace[..|done|] == done
    ensures !update ==> o == Publish(loc, body, done, s)
    ensures update ==> o.trace[|done|] == Lookup(loc)
    ensures update && s.findExisting(loc).Ok? && !TruthyId(s.findExisting(loc).value) ==>
      o == Publish(loc, body, done + [Lookup(loc)], s)
    ensures update && s.findExisting(loc).Ok? && TruthyId(s.findExisting(loc).value) ==>
      var id := s.findExisting(loc).value.value;
      && o.trace == done + [Lookup(loc), Update(loc, id, body)]
      && (s.update(loc, id, body).Ok? ==> o.report == Updated(s.update(loc, id, body).value))
      && (s.update(loc, id, body).Err? ==> o.report == Failed(s.update(loc, id, body).error))
    ensures update && s.findExisting(loc).Err? ==>
      o == Outcome(done + [Lookup(loc)], Failed(s.findExisting(loc).error))
  {
    if !update then Publish(loc, body, done, s)
    else
      var looked := done + [Lookup(loc)];
      match s.findExisting(loc)
      case Err(e) => Outcome(looked, Failed(e))
      case Ok(found) =>
        if TruthyId(found) then
          var id := found.value;
          match s.update(loc, id, body)
          case Err(e) => Outcome(looked + [Update(loc, id, body)], Failed(e))
          case Ok(url) => Outcome(looked + [Update(loc, id, body)], Updated(url))
        else Publish(loc, body, looked, s)
  }

  /** The run once the reference has parsed to `loc`. */
  function Proceed(loc: ParsedPrUrl, update: bool, s: Services): (o: Outcome)
    // the pull request is fetched first
    ensures |o.trace| >= 1 && o.trace[0] == Fetch(loc)
    // a failed fetch or analysis ends the run with its error, nothing called after it
    ensures s.fetch(loc).Err? ==> o == Outcome([Fetch(loc)], Failed(s.fetch(loc).error))
    ensures s.fetch(loc).Ok? && |s.fetch(loc).value.files| > 0 && s.analyze(s.fetch(loc).value).Err? ==>
      o == Outcome([Fetch(loc), Analyze(s.fetch(loc).value)], Failed(s.analyze(s.fetch(loc).value).error))
    // no files: nothing after the fetch
    ensures s.fetch(loc).Ok? && |s.fetch(loc).value.files| == 0 ==> o == Outcome([Fetch(loc)], NoFiles)
    // at most one lookup, as the third call, and at most one write, as the last
    ensures forall i :: 0 <= i < |o.trace| && o.trace[i].Lookup? ==> i == 2
    ensures forall i :: 0 <= i < |o.trace| && IsWrite(o.trace[i]) ==> i == |o.trace| - 1
    ensures |o.trace| <= 4
    // no lookup without `update`
    ensures !update ==> forall c :: c in o.trace ==> !c.Lookup?
    // a write only follows a successful analysis, and sends its rendering
    ensures forall c :: c in o.trace && IsWrite(c) ==>
      && s.fetch(loc).Ok?
      && s.analyze(s.fetch(loc).value).Ok?
      && c.loc == loc
      && c.body == s.format(s.analyze(s.fetch(loc).value).value)
    // an update always targets the id the lookup returned, and that id is truthy
    ensures forall c :: c in o.trace && c.Update? ==>
      update && s.findExisting(loc).Ok? && TruthyId(s.findExisting(loc).value)
      && c.id == s.findExisting(loc).value.value
    // a written comment is reported by the URL the write returned
    ensures o.report.Posted? ==> o.trace[|o.trace| - 1].Post?
    ensures o.report.Updated? ==> o.trace[|o.trace| - 1].Update?
    // without `update`, an analyzed pull request ends in exactly one post
    ensures !update && s.fetch(loc).Ok? && |s.fetch(loc).value.files| > 0 && s.analyze(s.fetch(loc).value).Ok? ==>
      o.trace == [Fetch(loc), Analyze(s.fetch(loc).value), Post(loc, s.format(s.analyze(s.fetch(loc).value).value))]
  {
    match s.fetch(loc)
    case Err(e) => Outcome([Fetch(loc)], Failed(e))
    case Ok(pr) =>
      if |pr.files| == 0 then Outcome([Fetch(loc)], NoFiles)
      else
        match s.analyze(pr)
        case Err(e) => Outcome([Fetch(loc), Analyze(pr)], Failed(e))
        case Ok(result) => Write(loc, s.format(result), [Fetch(loc), Analyze(pr)], update, s)
  }

  /** `commentCommand(prReference, { update })`: an invalid reference fails
      before any remote call. */
  function Run(reference: string, update: bool, s: Services): (o: Outcome)
    ensures Parser.ParsePrReference(reference).Err? ==>
      o == Outcome([], Failed(Parser.ParsePrReference(reference).error)) && ExitCode(o) == 1
    ensures Parser.ParsePrReference(reference).Ok? ==>
      o == Proceed(Parser.ParsePrReference(reference).value, update, s)
  {
    match Parser.ParsePrReference(reference)
    case Err(e) => Outcome([], Failed(e))
    case Ok(loc) => Proceed(loc, update, s)
  }

  /** With `update` set, a lookup that finds no truthy id changes nothing but
      the lookup itself: the run posts exactly as it would without `update`. */
  lemma UpdateFallsBackToPost(loc: ParsedPrUrl, s: Services)
    requires s.findExisting(loc).Ok? && !TruthyId(s.findExisting(loc).value)
    ensures var with := Proceed(loc, true, s);
            var without := Proceed(loc, false, s);
            && with.report == without.report
            && (|without.trace| <= 2 ==> with.trace == without.trace)
            && (|without.trace| > 2 ==> with.trace == without.trace[..2] + [Lookup(loc)] + without.trace[2..])
  {
    var without := Proceed(loc, false, s);
    if s.fetch(loc).Ok? && |s.fetch(loc).value.files| > 0 && s.analyze(s.fetch(loc).value).Ok? {
      var pr := s.fetch(loc).value;
      var body := s.format(s.analyze(pr).value);
      assert without.trace == [Fetch(loc), Analyze(pr)] + [Post(loc, body)];
    }
  }

  /** With `update` set and a truthy id found, the run updates that comment
      and posts nothing. */
  lemma UpdateReplacesPost(loc: ParsedPrUrl, s: Services)
    requires s.fetch(loc).Ok? && |s.fetch(loc).value.files| > 0
    requires s.analyze(s.fetch(loc).value).Ok?
    requires s.findExisting(loc).Ok? && TruthyId(s.findExisting(loc).value)
    ensures var o := Proceed(loc, true, s);
            && (forall c :: c in o.trace ==> !c.Post?)
            && o.trace[|o.trace| - 1] ==
                 Update(loc, s.findExisting(loc).value.value, s.format(s.analyze(s.fetch(loc).value).value))
  {}

  // ----- the services the program wires in -----

  /** The services as the program builds them from the REST and model calls:
      the pull request is read with the GitHub token, the review is produced
      by the analyzer, and the lookup is the marker search over the first page
      of comments. */
  function Wire(
    store: Settings.Store,
    env: Settings.Env,
    fetchPull: ParsedPrUrl -> Result<GitHub.RawPull>,
    listFiles: ParsedPrUrl -> Result<seq<GitHub.RawFile>>,
    listComments: ParsedPrUrl -> Result<seq<GitHub.RawComment>>,
    complete: Analyzer.Request -> Result<seq<Analyzer.ContentBlock>>,
    parseJson: string -> Option<Analyzer.AnalyzerOutput>,
    now: int,
    format: ReviewResult -> string,
    update: (ParsedPrUrl, int, string) -> Result<string>,
    post: (ParsedPrUrl, string) -> Result<string>): (s: Services)
    ensures forall loc :: s.fetch(loc) == GitHub.FetchPullRequest(Settings.GitHubToken(store, env), fetchPull, listFiles, loc)
    ensures forall pr :: s.analyze(pr) == Analyzer.Analyze(pr, store, env, complete, parseJson, now)
    ensures forall loc :: listComments(loc).Err? ==> s.findExisting(loc) == Err(listComments(loc).error)
    ensures forall loc :: listComments(loc).Ok? ==>
      s.findExisting(loc) == Ok(GitHub.FindExistingComment(listComments(loc).value))
    ensures s.format == format && s.update == update && s.post == post
  {
    Services(
      loc => GitHub.FetchPullRequest(Settings.GitHubToken(store, env), fetchPull, listFiles, loc),
      pr => Analyzer.Analyze(pr, store, env, complete, parseJson, now),
      format,
      loc => match listComments(loc)
             case Err(e) => Err(e)
             case Ok(comments) => Ok(GitHub.FindExistingComment(comments)),
      update,
      post)
  }

  /** With the wired services and `update` set, a pull request that is
      fetched and analyzed ends in a write chosen by the marker search over
      the listed comments: an update of the first marked comment when its id
      is truthy, a post when no comment is marked. */
  lemma WiredUpdateTargetsFirstMarked(
    loc: ParsedPrUrl,
    store: Settings.Store, env: Settings.Env,
    fetchPull: ParsedPrUrl -> Result<GitHub.RawPull>,
    listFiles: ParsedPrUrl -> Result<seq<GitHub.RawFile>>,
    listComments: ParsedPrUrl -> Result<seq<GitHub.RawComment>>,
    complete: Analyzer.Request -> Result<seq<Analyzer.ContentBlock>>,
    parseJson: string -> Option<Analyzer.AnalyzerOutput>,
    now: int,
    format: ReviewResult -> string,
    updateComment: (ParsedPrUrl, int, string) -> Result<string>,
    post: (ParsedPrUrl, string) -> Result<string>,
    comments: seq<GitHub.RawComment>)
    requires listComments(loc) == Ok(comments)
    ensures var s := Wire(store, env, fetchPull, listFiles, listComments, complete, parseJson, now,
                          format, updateComment, post);
            var o := Proceed(loc, true, s);
            s.fetch(loc).Ok? && |s.fetch(loc).value.files| > 0 && s.analyze(s.fetch(loc).value).Ok? ==>
              var body := format(s.analyze(s.fetch(loc).value).value);
              && (GitHub.FirstMarked(comments).Some? && comments[GitHub.FirstMarked(comments).value].id != 0 ==>
                    o.trace[|o.trace| - 1] == Update(loc, comments[GitHub.FirstMarked(comments).value].id, body))
              && (GitHub.FirstMarked(comments).None? ==> o.trace[|o.trace| - 1] == Post(loc, body))
  {
    var s := Wire(store, env, fetchPull, listFiles, listComments, complete, parseJson, now,
                  format, updateComment, post);
    assert s.findExisting(loc) == Ok(GitHub.FindExistingComment(comments));
  }

  /** Without a GitHub token the command stops at the fetch with the
      token error, whatever pull request the reference names. */
  lemma MissingTokenStopsAtFetch(
    loc: ParsedPrUrl, update: bool,
    store: Settings.Store, env: Settings.Env,
    fetchPull: ParsedPrUrl -> Result<GitHub.RawPull>,
    listFiles: ParsedPrUrl -> Result<seq<GitHub.RawFile>>,
    listComments: ParsedPrUrl -> Result<seq<GitHub.RawComment>>,
    complete: Analyzer.Request -> Result<seq<Analyzer.ContentBlock>>,
    parseJson: string -> Option<Analyzer.AnalyzerOutput>,
    now: int,
    format: ReviewResult -> string,
    updateComment: (ParsedPrUrl, int, string) -> Result<string>,
    post: (ParsedPrUrl, string) -> Result<string>)
    requires !Settings.Truthy(store.githubToken) && !Settings.Truthy(env.githubToken)
    ensures var s := Wire(store, env, fetchPull, listFiles, listComments, complete, parseJson, now,
                          format, updateComment, post);
            Proceed(loc, update, s) == Outcome([Fetch(loc)], Failed(Settings.GitHubTokenMissing))
  {}
}

=== FILE: config_command.dfy ===
/** `prism config set` and the secret masking of
    `src/cli/commands/config.ts`. Writing the store and exiting the process
    become a returned outcome: `Stored` carries the updated store, `Rejected`
    stands for exit code 1 with nothing written. */
module ConfigCommand {
  import opened Wrappers
  import opened Text
  import Settings

  // ----- the key whitelist -----

  datatype ConfigKey = AnthropicApiKey | GitHubToken | DefaultModel | MaxFilesPerReview

  function KeyName(k: ConfigKey): string {
    match k
    case AnthropicApiKey => "anthropicApiKey"
    case GitHubToken => "githubToken"
    case DefaultModel => "defaultModel"
    case MaxFilesPerReview => "maxFilesPerReview"
  }

  /** `CONFIG_KEYS`, in the order the program lists them. */
  const ConfigKeys: seq<string> := ["anthropicApiKey", "githubToken", "defaultModel", "maxFilesPerReview"]

  /** The whitelist check: exactly the four listed names are keys. */
  function ParseKey(name: string): (r: Option<ConfigKey>)
    ensures r.Some? <==> name in ConfigKeys
    ensures r.Some? ==> KeyName(r.value) == name
  {
    if name == "anthropicApiKey" then Some(AnthropicApiKey)
    else if name == "githubToken" then Some(GitHubToken)
    else if name == "defaultModel" then Some(DefaultModel)
    else if name == "maxFilesPerReview" then Some(MaxFilesPerReview)
    else None
  }

  lemma KeyRoundTrip(k: ConfigKey)
    ensures ParseKey(KeyName(k)) == Some(k)
  {}

  predicate IsSecret(k: ConfigKey) {
    k == AnthropicApiKey || k == GitHubToken
  }

  // ----- parseInt(value, 10) -----

  /** The characters `parseInt` skips before the number: white space and
      line terminators as ECMAScript defines them. */
  predicate IsJsWhitespace(c: char) {
    || c == '\t' || c == '\n' || c == '\U{B}' || c == '\U{C}' || c == '\r' || c == ' '
    || c == '\U{A0}' || c == '\U{1680}' || ('\U{2000}' <= c <= '\U{200A}')
    || c == '\U{2028}' || c == '\U{2029}' || c == '\U{202F}' || c == '\U{205F}'
    || c == '\U{3000}' || c == '\U{FEFF}'
  }

  function TrimStart(s: string): (r: string)
    ensures |r| <= |s| && r == s[|s| - |r|..]
    ensures |r| == 0 || !IsJsWhitespace(r[0])
    ensures forall i :: 0 <= i < |s| - |r| ==> IsJsWhitespace(s[i])
  {
    if |s| > 0 && IsJsWhitespace(s[0]) then TrimStart(s[1..]) else s
  }

  /** `parseInt(s, 10)`: leading white space, an optional sign, then the
      longest digit run; `None` is NaN (no digit where the number should start). */
  function ParseInt(s: string): (r: Option<int>)
    ensures r.Some? <==> HasNumber(TrimStart(s))
    ensures r.Some? && TrimStart(s)[0] == '-' ==> r.value <= 0
    ensures r.Some? && TrimStart(s)[0] != '-' ==> r.value >= 0
  {
    ParseSigned(TrimStart(s))
  }

  /** Text that starts with a digit, possibly after one sign character. */
  predicate HasNumber(t: string) {
    || (|t| > 0 && IsDigit(t[0]))
    || (|t| > 1 && (t[0] == '-' || t[0] == '+') && IsDigit(t[1]))
  }

  /** The number at the start of text that does not begin with white space. */
  function ParseSigned(t: string): (r: Option<int>)
    ensures r.Some? <==> HasNumber(t)
    ensures r.Some? && t[0] == '-' ==> r.value <= 0
    ensures r.Some? && t[0] != '-' ==> r.value >= 0
  {
    if |t| > 0 && t[0] == '-' then
      match ParseDigits(t[1..])
      case None => None
      case Some(n) => Some(-(n as int))
    else if |t| > 0 && t[0] == '+' then ParseDigits(t[1..])
    else ParseDigits(t)
  }

  /** The value of the leading digit run, if there is one. */
  function ParseDigits(body: string): (r: Option<nat>)
    ensures r.Some? <==> |body| > 0 && IsDigit(body[0])
  {
    var k := DigitRun(body);
    if k == 0 then None else Some(DigitsValue(body[..k]))
  }

  /** A digit run is read up to the first non-digit. */
  lemma ParseDigitsOf(n: nat, tail: string)
    requires |tail| == 0 || !IsDigit(tail[0])
    ensures ParseDigits(NatToString(n) + tail) == Some(n)
  {
    var digits := NatToString(n);
    DigitRunOf(digits, tail);
    assert (digits + tail)[..|digits|] == digits;
    NatToStringRoundTrip(n);
  }

  /** `parseInt` reads back a number's decimal text, ignoring anything after
      the digits. */
  lemma ParseIntOfNat(n: nat, tail: string)
    requires |tail| == 0 || !IsDigit(tail[0])
    ensures ParseInt(NatToString(n) + tail) == Some(n)
  {
    var digits := NatToString(n);
    var s := digits + tail;
    assert s[0] == digits[0];
    DigitIsNotSpace(s[0]);
    assert TrimStart(s) == s;
    assert ParseSigned(s) == ParseDigits(s);
    ParseDigitsOf(n, tail);
  }

  lemma DigitIsNotSpace(c: char)
    requires IsDigit(c)
    ensures !IsJsWhitespace(c) && c != '-' && c != '+'
  {}

  /** A leading minus sign negates. */
  lemma ParseIntNegative(n: nat)
    ensures ParseInt("-" + NatToString(n)) == Some(-(n as int))
  {
    var s := "-" + NatToString(n);
    assert TrimStart(s) == s;
    assert s[1..] == NatToString(n) + "";
    ParseDigitsOf(n, "");
  }

  /** Leading white space does not change the result. */
  lemma ParseIntSkipsWhitespace(c: char, s: string)
    requires IsJsWhitespace(c)
    ensures ParseInt([c] + s) == ParseInt(s)
  {
    var t := [c] + s;
    assert t[0] == c && t[1..] == s;
    assert TrimStart(t) == TrimStart(s);
  }

  // ----- maskSensitive -----

  const NotSet := "(not set)"
  const ShortSecretMask := "********"

  /** `maskSensitive`: absent values read "(not set)"; a secret of at most 8
      characters is fully hidden, a longer one shows only its first and last
      four characters; other keys are shown as they are. */
  function MaskSensitive(k: ConfigKey, value: Option<string>): (r: string)
    ensures value.None? ==> r == NotSet
    ensures value.Some? && !IsSecret(k) ==> r == value.value
    ensures value.Some? && IsSecret(k) && |value.value| <= 8 ==> r == ShortSecretMask
    ensures value.Some? && IsSecret(k) && |value.value| > 8 ==>
      var v := value.value;
      |r| == 12 && r[..4] == v[..4] && r[4..8] == "****" && r[8..] == v[|v| - 4..]
  {
    match value
    case None => NotSet
    case Some(v) =>
      if IsSecret(k) then
        if |v| <= 8 then ShortSecretMask
        else Slice(v, 0, 4) + "****" + Slice(v, -4, |v|)
      else v
  }

  /** The mask of a secret depends only on its first and last four characters,
      so what lies between them is never revealed. */
  lemma MaskHidesMiddle(k: ConfigKey, v: string, w: string)
    requires IsSecret(k)
    requires |v| > 8 && |w| > 8
    requires v[..4] == w[..4] && v[|v| - 4..] == w[|w| - 4..]
    ensures MaskSensitive(k, Some(v)) == MaskSensitive(k, Some(w))
  {
    var a := MaskSensitive(k, Some(v));
    var b := MaskSensitive(k, Some(w));
    assert a == a[..4] + a[4..8] + a[8..];
    assert b == b[..4] + b[4..8] + b[8..];
  }

  // ----- config set -----

  datatype SetOutcome = Stored(store: Settings.Store, message: string) | Rejected(message: string)

  const PositiveNumberRequired := "maxFilesPerReview must be a positive number"

  /** `process.exit(1)` after a rejection, a normal return otherwise. */
  function ExitCode(o: SetOutcome): (code: int)
    ensures code == 1 <==> o.Rejected?
    ensures code == 0 <==> o.Stored?
  {
    if o.Rejected? then 1 else 0
  }

  /** `configSetCommand(key, value)` against the current store. */
  function ConfigSet(key: string, value: string, store: Settings.Store): (r: SetOutcome)
    ensures key !in ConfigKeys ==> r == Rejected("Unknown config key: " + key) && ExitCode(r) == 1
    ensures key == "maxFilesPerReview" ==>
      (r.Stored? <==> ParseInt(value).Some? && ParseInt(value).value >= 1)
    ensures key == "maxFilesPerReview" && r.Rejected? ==> r.message == PositiveNumberRequired
    ensures key in ConfigKeys && key != "maxFilesPerReview" ==> r.Stored?
    ensures r.Stored? ==> r.message == "Set " + key + " = " + MaskSensitive(ParseKey(key).value, Some(value))
    // the stored value: a number for maxFilesPerReview, the raw text otherwise
    ensures r.Stored? && key == "maxFilesPerReview" ==> r.store.maxFilesPerReview == ParseInt(value)
    ensures r.Stored? && key == "anthropicApiKey" ==> r.store.anthropicApiKey == Some(value)
    ensures r.Stored? && key == "githubToken" ==> r.store.githubToken == Some(value)
    ensures r.Stored? && key == "defaultModel" ==> r.store.defaultModel == Some(value)
    // nothing else changes
    ensures r.Stored? ==>
      && (key != "anthropicApiKey" ==> r.store.anthropicApiKey == store.anthropicApiKey)
      && (key != "githubToken" ==> r.store.githubToken == store.githubToken)
      && (key != "defaultModel" ==> r.store.defaultModel == store.defaultModel)
      && (key != "maxFilesPerReview" ==> r.store.maxFilesPerReview == store.maxFilesPerReview)
  {
    match ParseKey(key)
    case None => Rejected("Unknown config key: " + key)
    case Some(k) =>
      var updated :=
        match k
        case AnthropicApiKey => Some(store.(anthropicApiKey := Some(value)))
        case GitHubToken => Some(store.(githubToken := Some(value)))
        case DefaultModel => Some(store.(defaultModel := Some(value)))
        case MaxFilesPerReview =>
          var n := ParseInt(value);
          if n.None? || n.value < 1 then None
          else Some(store.(maxFilesPerReview := n));
      if updated.None? then Rejected(PositiveNumberRequired)
      else Stored(updated.value, "Set " + key + " = " + MaskSensitive(k, Some(value)))
  }
}

=== FILE: github.dfy ===
/** The pure parts of `src/core/github.ts`: turning the REST responses for a
    pull request and its file listing into a `PullRequest`, and finding the
    review comment by its marker. The REST calls themselves are parameters
    (`fetchPull`, `listFiles`) returning what the API answered or the error
    it raised; the client is built only once a GitHub token is available. */
module GitHub {
  import opened Wrappers
  import opened Text
  import opened Types

  /** The fields of a `pulls.get` response the program reads. `user` is
      absent when GitHub reports no user; `body` is null for an empty description. */
  datatype RawPull = RawPull(
    number: nat,
    title: string,
    body: Option<string>,
    user: Option<RawUser>,
    baseRef: string,
    headRef: string,
    htmlUrl: string,
    additions: nat,
    deletions: nat,
    changedFiles: nat)

  datatype RawUser = RawUser(login: string)

  /** One entry of a `pulls.listFiles` response. */
  datatype RawFile = RawFile(
    filename: string,
    status: string,
    additions: nat,
    deletions: nat,
    patch: Option<string>,
    previousFilename: Option<string>)

  /** One entry of an `issues.listComments` response. */
  datatype RawComment = RawComment(id: int, body: Option<string>)

  /** The marker that identifies the tool's own review comment. */
  const Marker := "<!-- prism-review -->"

  // ----- response mapping -----

  /** A listed file as a `PullRequestFile`; the status label is cast as is. */
  function MapFile(f: RawFile): (r: PullRequestFile)
    ensures UnmapFile(r) == f
  {
    PullRequestFile(f.filename, f.status, f.additions, f.deletions, f.patch, f.previousFilename)
  }

  /** The file entry back in the shape of the listing. */
  function UnmapFile(f: PullRequestFile): RawFile {
    RawFile(f.filename, f.status, f.additions, f.deletions, f.patch, f.previousFilename)
  }

  /** The mapping loses nothing: each direction undoes the other. */
  lemma MapFileBijective(raw: RawFile, f: PullRequestFile)
    ensures UnmapFile(MapFile(raw)) == raw
    ensures MapFile(UnmapFile(f)) == f
  {}

  /** `filesData.map(...)`: same length, same order, entry by entry. */
  function MapFiles(raws: seq<RawFile>): (fs: seq<PullRequestFile>)
    ensures |fs| == |raws|
    ensures forall i :: 0 <= i < |raws| ==> UnmapFile(fs[i]) == raws[i]
  {
    seq(|raws|, i requires 0 <= i < |raws| => MapFile(raws[i]))
  }

  /** `body || ''`. */
  function Description(body: Option<string>): (d: string)
    ensures d == "" <==> body.None? || body == Some("")
    ensures d != "" ==> body == Some(d)
  {
    if body.Some? && body.value != "" then body.value else ""
  }

  /** `user?.login || 'unknown'`. */
  function Author(user: Option<RawUser>): (a: string)
    ensures a != ""
    ensures user.Some? && user.value.login != "" ==> a == user.value.login
    ensures user.None? || user.value.login == "" ==> a == "unknown"
  {
    if user.Some? && user.value.login != "" then user.value.login else "unknown"
  }

  /** The `PullRequest` built from the two responses. */
  function MapPullRequest(pr: RawPull, files: seq<RawFile>): (r: PullRequest)
    ensures r.number == pr.number && r.title == pr.title && r.url == pr.htmlUrl
    ensures r.baseBranch == pr.baseRef && r.headBranch == pr.headRef
    ensures r.additions == pr.additions && r.deletions == pr.deletions
    ensures r.changedFiles == pr.changedFiles
    ensures r.description == Description(pr.body) && r.author == Author(pr.user)
    ensures |r.files| == |files|
    ensures forall i :: 0 <= i < |files| ==> UnmapFile(r.files[i]) == files[i]
  {
    PullRequest(
      pr.number, pr.title, Description(pr.body), Author(pr.user),
      pr.baseRef, pr.headRef, pr.htmlUrl,
      pr.additions, pr.deletions, pr.changedFiles,
      MapFiles(files))
  }

  /** A status label outside the union reaches the model unchecked, and one
      inside it gives a well-typed pull request. */
  lemma MappedStatusesUnchecked(pr: RawPull, files: seq<RawFile>)
    ensures WellTypedPullRequest(MapPullRequest(pr, files)) <==>
      forall f :: f in files ==> f.status in StatusLabels
  {
    var r := MapPullRequest(pr, files);
    forall f | f in files
      ensures f.status == r.files[IndexOf(files, f)].status
    {
      var i := IndexOf(files, f);
      assert UnmapFile(r.files[i]) == files[i];
    }
    forall g | g in r.files
      ensures g.status == files[IndexOf(r.files, g)].status
    {
      var i := IndexOf(r.files, g);
      assert UnmapFile(r.files[i]) == files[i];
    }
  }

  function IndexOf<T(==)>(s: seq<T>, x: T): (i: nat)
    requires x in s
    ensures i < |s| && s[i] == x
  {
    if s[0] == x then 0 else 1 + IndexOf(s[1..], x)
  }

  /** `fetchPullRequest`: the token is needed to build the client, then the
      pull request is read, then its first page of files; the first failure
      is returned unchanged. */
  function FetchPullRequest(
    token: Result<string>,
    fetchPull: ParsedPrUrl -> Result<RawPull>,
    listFiles: ParsedPrUrl -> Result<seq<RawFile>>,
    loc: ParsedPrUrl): (r: Result<PullRequest>)
    ensures token.Err? ==> r == Err(token.error)
    ensures token.Ok? && fetchPull(loc).Err? ==> r == Err(fetchPull(loc).error)
    ensures token.Ok? && fetchPull(loc).Ok? && listFiles(loc).Err? ==> r == Err(listFiles(loc).error)
    ensures r.Ok? <==> token.Ok? && fetchPull(loc).Ok? && listFiles(loc).Ok?
    ensures r.Ok? ==> r.value == MapPullRequest(fetchPull(loc).value, listFiles(loc).value)
  {
    if token.Err? then Err(token.error)
    else match fetchPull(loc)
      case Err(e) => Err(e)
      case Ok(pr) =>
        match listFiles(loc)
        case Err(e) => Err(e)
        case Ok(files) => Ok(MapPullRequest(pr, files))
  }

  // ----- marker search -----

  /** `c.body?.includes(Marker)`: a comment without a body never matches. */
  predicate Marked(c: RawComment) {
    c.body.Some? && Contains(c.body.value, Marker)
  }

  /** Position of the first marked comment. */
  function FirstMarked(comments: seq<RawComment>): (r: Option<nat>)
    ensures r.Some? ==> r.value < |comments| && Marked(comments[r.value])
    ensures r.Some? ==> forall j :: 0 <= j < r.value ==> !Marked(comments[j])
    ensures r.None? <==> forall j :: 0 <= j < |comments| ==> !Marked(comments[j])
  {
    if |comments| == 0 then None
    else if Marked(comments[0]) then Some(0)
    else match FirstMarked(comments[1..])
      case None => None
      case Some(k) => Some(k + 1)
  }

  /** `findExistingPrismComment` on the listed comments: the id of the first
      comment whose body holds the marker, or null. */
  function FindExistingComment(comments: seq<RawComment>): (r: Option<int>)
    ensures r.None? <==> forall j :: 0 <= j < |comments| ==> !Marked(comments[j])
    ensures r.Some? ==> exists k :: 0 <= k < |comments| && comments[k].id == r.value
                                    && Marked(comments[k])
                                    && forall j :: 0 <= j < k ==> !Marked(comments[j])
  {
    match FirstMarked(comments)
    case None => None
    case Some(k) => Some(comments[k].id)
  }

  /** Comments after the first marked one do not affect the answer. */
  lemma FindIgnoresLaterComments(comments: seq<RawComment>, later: seq<RawComment>)
    requires FirstMarked(comments).Some?
    ensures FindExistingComment(comments + later) == FindExistingComment(comments)
  {
    var k := FirstMarked(comments).value;
    var all := comments + later;
    assert all[k] == comments[k];
    assert forall j :: 0 <= j < k ==> all[j] == comments[j];
    FirstMarkedIs(all, k);
  }

  /** The first marked position is determined by the markings alone. */
  lemma {:induction false} FirstMarkedIs(comments: seq<RawComment>, k: nat)
    requires k < |comments| && Marked(comments[k])
    requires forall j :: 0 <= j < k ==> !Marked(comments[j])
    ensures FirstMarked(comments) == Some(k)
  {
    if k > 0 {
      var tail := comments[1..];
      assert forall j :: 0 <= j < k - 1 ==> tail[j] == comments[j + 1];
      FirstMarkedIs(tail, k - 1);
    }
  }
}

=== FILE: parser.dfy ===
/** PR-reference parsing and the two text utilities of `src/utils/parser.ts`.

    The two regular expressions are matched by hand. Each matcher returns the
    groups it captured, and its result is tied to a declarative description
    of the grammar (`UrlShape`, `ShortShape`) in both directions: whatever is
    matched has the shape, and every decomposition of the input with that
    shape is the one matched. */
module Parser {
  import opened Wrappers
  import opened Text
  import opened Types

  const Host := "github.com/"

  predicate NoSlash(s: string) {
    forall i :: 0 <= i < |s| ==> s[i] != '/'
  }

  /** A `[^/]+` capture: non-empty, no slash. */
  predicate Segment(s: string) {
    |s| > 0 && NoSlash(s)
  }

  /** Length of the longest slash-free prefix (what greedy `[^/]+` consumes). */
  function NonSlashRun(s: string): (n: nat)
    ensures n <= |s|
    ensures forall i :: 0 <= i < n ==> s[i] != '/'
    ensures n < |s| ==> s[n] == '/'
  {
    if |s| == 0 || s[0] == '/' then 0 else 1 + NonSlashRun(s[1..])
  }

  /** `[^/]+/`: a non-empty slash-free head, the slash, and what follows. */
  function SplitSegment(s: string): (r: Option<(string, string)>)
    ensures r.Some? ==> Segment(r.value.0) && s == r.value.0 + ("/" + r.value.1)
  {
    var i := NonSlashRun(s);
    if i == 0 || i == |s| then None
    else
      assert s == s[..i] + ("/" + s[i + 1..]);
      Some((s[..i], s[i + 1..]))
  }

  /** A segment followed by a slash is split exactly there. */
  lemma SplitSegmentOf(seg: string, t: string)
    requires Segment(seg)
    ensures SplitSegment(seg + ("/" + t)) == Some((seg, t))
  {
    var s := seg + ("/" + t);
    assert forall i :: 0 <= i < |seg| ==> s[i] == seg[i];
    assert s[|seg|] == '/';
    assert NonSlashRun(s) == |seg|;
    assert s[..|seg|] == seg;
    assert s[|seg| + 1..] == t;
  }

  /** Greedy `\d+`: a non-empty digit run and the text after it. */
  function SplitDigits(s: string): (r: Option<(string, string)>)
    ensures r.Some? ==> |r.value.0| > 0 && AllDigits(r.value.0)
    ensures r.Some? ==> |r.value.1| == 0 || !IsDigit(r.value.1[0])
    ensures r.Some? ==> s == r.value.0 + r.value.1
  {
    var k := DigitRun(s);
    if k == 0 then None
    else
      assert s == s[..k] + s[k..];
      Some((s[..k], s[k..]))
  }

  lemma SplitDigitsOf(digits: string, rest: string)
    requires |digits| > 0 && AllDigits(digits)
    requires |rest| == 0 || !IsDigit(rest[0])
    ensures SplitDigits(digits + rest) == Some((digits, rest))
  {
    DigitRunOf(digits, rest);
    assert (digits + rest)[..|digits|] == digits;
    assert (digits + rest)[|digits|..] == rest;
  }

  // ----- URL form: ^(?:https?://)?(?:www\.)?github\.com/([^/]+)/([^/]+)/pull/(\d+) -----

  /** The pieces of a URL-form match. `rest` is the unmatched tail: the
      expression is anchored only at the start, so anything may follow the
      digit run except another digit (the run is greedy). */
  datatype UrlMatch = UrlMatch(
    scheme: string, www: string, owner: string, repo: string, digits: string, rest: string)

  predicate UrlShape(input: string, m: UrlMatch) {
    && (m.scheme == "" || m.scheme == "http://" || m.scheme == "https://")
    && (m.www == "" || m.www == "www.")
    && Segment(m.owner)
    && Segment(m.repo)
    && |m.digits| > 0 && AllDigits(m.digits)
    && (|m.rest| == 0 || !IsDigit(m.rest[0]))
    && input == m.scheme + (m.www + (Host + (m.owner + ("/" + (m.repo + ("/" + ("pull/" + (m.digits + m.rest))))))))
  }

  /** The optional `https?://` group, and the text after it. */
  function SplitScheme(input: string): (r: (string, string))
    ensures input == r.0 + r.1
  {
    if IsPrefix("https://", input) then ("https://", Peel("https://", input).value)
    else if IsPrefix("http://", input) then ("http://", Peel("http://", input).value)
    else ("", input)
  }

  /** Text that goes on with `www.` or `github.com/` fixes the scheme group:
      neither starts with `h`, so the engine cannot backtrack into another reading. */
  lemma SplitSchemeOf(scheme: string, t: string)
    requires scheme == "" || scheme == "http://" || scheme == "https://"
    requires |t| > 0 && (t[0] == 'w' || t[0] == 'g')
    ensures SplitScheme(scheme + t) == (scheme, t)
  {
    var s := scheme + t;
    if scheme == "" {
      assert s == t;
      NotPrefixAt("https://", s, 0);
      NotPrefixAt("http://", s, 0);
    } else if scheme == "http://" {
      NotPrefixAt("https://", s, 4);
      PeelConcat(scheme, t);
    } else {
      PeelConcat(scheme, t);
    }
  }

  /** The optional `www.` group, and the text after it. */
  function SplitWww(s: string): (r: (string, string))
    ensures s == r.0 + r.1
  {
    if IsPrefix("www.", s) then ("www.", Peel("www.", s).value) else ("", s)
  }

  lemma SplitWwwOf(www: string, t: string)
    requires www == "" || www == "www."
    requires |t| > 0 && t[0] == 'g'
    ensures SplitWww(www + t) == (www, t)
  {
    if www == "" {
      assert www + t == t;
      NotPrefixAt("www.", t, 0);
    } else {
      PeelConcat(www, t);
    }
  }

  /** The groups after `github.com/`: owner, repo, digits and the unmatched rest. */
  function MatchAfterHost(s: string): (r: Option<(string, string, string, string)>)
    ensures r.Some? ==> var (owner, repo, digits, rest) := r.value;
      && Segment(owner) && Segment(repo)
      && |digits| > 0 && AllDigits(digits) && (|rest| == 0 || !IsDigit(rest[0]))
      && s == owner + ("/" + (repo + ("/" + ("pull/" + (digits + rest)))))
  {
    match SplitSegment(s)
    case None => None
    case Some((owner, s4)) =>
      match SplitSegment(s4)
      case None => None
      case Some((repo, s5)) =>
        match Peel("pull/", s5)
        case None => None
        case Some(s6) =>
          match SplitDigits(s6)
          case None => None
          case Some((digits, rest)) => Some((owner, repo, digits, rest))
  }

  function MatchUrl(input: string): (r: Option<UrlMatch>)
    ensures r.Some? ==> UrlShape(input, r.value)
  {
    var (scheme, s1) := SplitScheme(input);
    var (www, s2) := SplitWww(s1);
    MatchFromHost(scheme, www, s2)
  }

  /** The match once the optional groups are split off: `github.com/` and
      the groups after it. */
  function MatchFromHost(scheme: string, www: string, s2: string): (r: Option<UrlMatch>)
    requires scheme == "" || scheme == "http://" || scheme == "https://"
    requires www == "" || www == "www."
    ensures r.Some? ==> UrlShape(scheme + (www + s2), r.value)
  {
    match Peel(Host, s2)
    case None => None
    case Some(s3) =>
      match MatchAfterHost(s3)
      case None => None
      case Some((owner, repo, digits, rest)) => Some(UrlMatch(scheme, www, owner, repo, digits, rest))
  }

  /** Every URL-form decomposition of the input is the one `MatchUrl` finds:
      with `MatchUrl`'s ensures, `MatchUrl(input) == Some(m) <==> UrlShape(input, m)`. */
  lemma MatchUrlComplete(input: string, m: UrlMatch)
    requires UrlShape(input, m)
    ensures MatchUrl(input) == Some(m)
  {
    var s3 := m.owner + ("/" + (m.repo + ("/" + ("pull/" + (m.digits + m.rest)))));
    var s2 := Host + s3;
    var s1 := m.www + s2;
    SplitSchemeOf(m.scheme, s1);
    SplitWwwOf(m.www, s2);
    PeelConcat(Host, s3);
    MatchAfterHostOf(m.owner, m.repo, m.digits, m.rest);
  }

  /** The groups after the host are read back as they were laid out. */
  lemma MatchAfterHostOf(owner: string, repo: string, digits: string, rest: string)
    requires Segment(owner) && Segment(repo)
    requires |digits| > 0 && AllDigits(digits) && (|rest| == 0 || !IsDigit(rest[0]))
    ensures MatchAfterHost(owner + ("/" + (repo + ("/" + ("pull/" + (digits + rest)))))) ==
      Some((owner, repo, digits, rest))
  {
    var s6 := digits + rest;
    var s5 := "pull/" + s6;
    var s4 := repo + ("/" + s5);
    SplitSegmentOf(owner, s4);
    SplitSegmentOf(repo, s5);
    PeelConcat("pull/", s6);
    SplitDigitsOf(digits, rest);
  }

  // ----- short form: ^([^/]+)/([^/]+)#(\d+)$ -----

  /** The pieces of a short-form match. The repo may itself contain `#`: the
      repo group is greedy, so the number is the digit run after the last `#`. */
  datatype ShortMatch = ShortMatch(owner: string, repo: string, digits: string)

  predicate ShortShape(input: string, m: ShortMatch) {
    && Segment(m.owner)
    && Segment(m.repo)
    && |m.digits| > 0 && AllDigits(m.digits)
    && input == m.owner + ("/" + (m.repo + ("#" + m.digits)))
  }

  /** `([^/]+)#(\d+)$` on the text after the first slash. */
  function SplitRepoNumber(tail: string): (r: Option<(string, string)>)
    ensures r.Some? ==> Segment(r.value.0) && |r.value.1| > 0 && AllDigits(r.value.1)
    ensures r.Some? ==> tail == r.value.0 + ("#" + r.value.1)
  {
    if !NoSlash(tail) then None
    else match LastIndexOf(tail, '#')
      case None => None
      case Some(k) =>
        var digits := tail[k + 1..];
        if k == 0 || |digits| == 0 || !AllDigits(digits) then None
        else
          assert tail == tail[..k] + ("#" + digits);
          Some((tail[..k], digits))
  }

  lemma SplitRepoNumberOf(repo: string, digits: string)
    requires Segment(repo) && |digits| > 0 && AllDigits(digits)
    ensures SplitRepoNumber(repo + ("#" + digits)) == Some((repo, digits))
  {
    var tail := repo + ("#" + digits);
    assert forall k :: 0 <= k < |repo| ==> tail[k] == repo[k];
    assert forall k :: |repo| < k < |tail| ==> tail[k] == digits[k - |repo| - 1];
    assert tail[|repo|] == '#';
    assert NoSlash(tail);
    assert LastIndexOf(tail, '#') == Some(|repo|);
    assert tail[..|repo|] == repo;
    assert tail[|repo| + 1..] == digits;
  }

  function MatchShort(input: string): (r: Option<ShortMatch>)
    ensures r.Some? ==> ShortShape(input, r.value)
  {
    match SplitSegment(input)
    case None => None
    case Some((owner, tail)) =>
      match SplitRepoNumber(tail)
      case None => None
      case Some((repo, digits)) => Some(ShortMatch(owner, repo, digits))
  }

  /** Every short-form decomposition of the input is the one `MatchShort`
      finds: `MatchShort(input) == Some(m) <==> ShortShape(input, m)`. */
  lemma MatchShortComplete(input: string, m: ShortMatch)
    requires ShortShape(input, m)
    ensures MatchShort(input) == Some(m)
  {
    SplitSegmentOf(m.owner, m.repo + ("#" + m.digits));
    SplitRepoNumberOf(m.repo, m.digits);
  }

  // ----- parsePrReference -----

  const InvalidReferencePrefix := "Invalid PR reference: \""

  const UsageHint := "\". Use format: https://github.com/owner/repo/pull/123 or owner/repo#123"

  /** The rejection message: the input quoted between the prefix and the usage hint. */
  function InvalidReference(input: string): (r: string)
    ensures |r| == |InvalidReferencePrefix| + |input| + |UsageHint|
    ensures r[..|InvalidReferencePrefix|] == InvalidReferencePrefix
    ensures r[|InvalidReferencePrefix|..|InvalidReferencePrefix| + |input|] == input
    ensures r[|InvalidReferencePrefix| + |input|..] == UsageHint
  {
    InvalidReferencePrefix + input + UsageHint
  }

  /** The message names the rejected input: different inputs give different messages. */
  lemma {:induction false} InvalidReferenceInjective(a: string, b: string)
    requires InvalidReference(a) == InvalidReference(b)
    ensures a == b
  {
    var n := |InvalidReferencePrefix|;
    assert |a| == |b|;
    assert a == InvalidReference(a)[n..n + |a|];
  }

  /** Parses a PR reference: the URL form first, then the short form. The
      number is the base-10 value of the captured digits. */
  function ParsePrReference(input: string): (r: Result<ParsedPrUrl>)
    ensures r.Ok? ==>
      || (exists m :: UrlShape(input, m) && r.value == ParsedPrUrl(m.owner, m.repo, DigitsValue(m.digits)))
      || (exists m :: ShortShape(input, m) && r.value == ParsedPrUrl(m.owner, m.repo, DigitsValue(m.digits)))
    ensures r.Err? ==> r.error == InvalidReference(input)
  {
    match MatchUrl(input)
    case Some(m) => Ok(ParsedPrUrl(m.owner, m.repo, DigitsValue(m.digits)))
    case None =>
      match MatchShort(input)
      case Some(m) => Ok(ParsedPrUrl(m.owner, m.repo, DigitsValue(m.digits)))
      case None => Err(InvalidReference(input))
  }

  /** Every URL-form input parses to its owner, repo and number, whatever
      follows the digit run. */
  lemma ParseUrlForm(input: string, m: UrlMatch)
    requires UrlShape(input, m)
    ensures ParsePrReference(input) == Ok(ParsedPrUrl(m.owner, m.repo, DigitsValue(m.digits)))
  {
    MatchUrlComplete(input, m);
  }

  /** A URL-form input has two slashes (after the host and after the owner). */
  lemma UrlSlashes(input: string, m: UrlMatch) returns (p: nat, q: nat)
    requires UrlShape(input, m)
    ensures p < q < |input| && input[p] == '/' && input[q] == '/'
  {
    p := |m.scheme| + |m.www| + |Host| - 1;
    q := p + 1 + |m.owner|;
    assert input[p] == '/';
    assert input[q] == '/';
  }

  /** A URL-form input has at least two slashes; a short-form input exactly
      one. So no input has both shapes, and trying the URL form first never
      hides a short-form reading. */
  lemma GrammarsDisjoint(input: string, u: UrlMatch, s: ShortMatch)
    requires UrlShape(input, u)
    ensures !ShortShape(input, s)
  {
    var p, q := UrlSlashes(input, u);
  }

  /** Every short-form input parses to its owner, repo and number. */
  lemma ParseShortForm(input: string, m: ShortMatch)
    requires ShortShape(input, m)
    ensures ParsePrReference(input) == Ok(ParsedPrUrl(m.owner, m.repo, DigitsValue(m.digits)))
  {
    if MatchUrl(input).Some? {
      GrammarsDisjoint(input, MatchUrl(input).value, m);
    }
    MatchShortComplete(input, m);
  }

  /** An input is rejected exactly when it has neither shape. */
  lemma ParseRejectsIff(input: string)
    ensures ParsePrReference(input).Err? <==>
      (forall m :: !UrlShape(input, m)) && (forall m :: !ShortShape(input, m))
  {
    if ParsePrReference(input).Err? {
      forall m | UrlShape(input, m) ensures false {
        MatchUrlComplete(input, m);
      }
      forall m | ShortShape(input, m) ensures false {
        MatchShortComplete(input, m);
      }
    }
  }

  /** Text with at most one slash and no `#` has neither shape, so it is
      rejected: this covers `invalid`, `owner/repo` and `123`. */
  lemma ParseRejectsWithoutHash(input: string)
    requires forall i, j :: 0 <= i < j < |input| && input[i] == '/' ==> input[j] != '/'
    requires forall i :: 0 <= i < |input| ==> input[i] != '#'
    ensures ParsePrReference(input) == Err(InvalidReference(input))
  {
    NoUrlWithOneSlash(input);
    NoShortWithoutHash(input);
  }

  lemma NoUrlWithOneSlash(input: string)
    requires forall i, j :: 0 <= i < j < |input| && input[i] == '/' ==> input[j] != '/'
    ensures MatchUrl(input).None?
  {
    if MatchUrl(input).Some? {
      var p, q := UrlSlashes(input, MatchUrl(input).value);
    }
  }

  lemma NoShortWithoutHash(input: string)
    requires forall i :: 0 <= i < |input| ==> input[i] != '#'
    ensures MatchShort(input).None?
  {
    if MatchShort(input).Some? {
      ShortHash(input, MatchShort(input).value);
    }
  }

  /** A short-form input has a `#` right after the repo. */
  lemma ShortHash(input: string, m: ShortMatch)
    requires ShortShape(input, m)
    ensures input[|m.owner| + 1 + |m.repo|] == '#'
  {}

  /** The rejected references of the program's tests. */
  lemma ParseRejectExamples()
    ensures ParsePrReference("invalid").Err?
    ensures ParsePrReference("owner/repo").Err?
    ensures ParsePrReference("123").Err?
  {
    RejectExampleChars();
    ParseRejectsWithoutHash("invalid");
    ParseRejectsWithoutHash("owner/repo");
    ParseRejectsWithoutHash("123");
  }

  lemma RejectExampleChars()
    ensures forall i :: 0 <= i < |"invalid"| ==> "invalid"[i] != '/' && "invalid"[i] != '#'
    ensures forall i :: 0 <= i < |"123"| ==> "123"[i] != '/' && "123"[i] != '#'
    ensures forall i :: 0 <= i < |"owner/repo"| ==> "owner/repo"[i] != '#' && ("owner/repo"[i] == '/' <==> i == 5)
  {}

  /** The URL example of the program's tests, split at its groups. */
  lemma UrlExampleText()
    ensures "https://github.com/owner/repo/pull/123"
      == "https://" + ("" + (Host + ("owner" + ("/" + ("repo" + ("/" + ("pull/" + ("123" + ""))))))))
  {}

  /** A URL followed by a trailing path, split at its groups. */
  lemma TrailingExampleText()
    ensures "www.github.com/acme/widgets/pull/7/files"
      == "" + ("www." + (Host + ("acme" + ("/" + ("widgets" + ("/" + ("pull/" + ("7" + "/files"))))))))
  {}

  /** The URL reference of the program's tests. */
  lemma ParseUrlExample()
    ensures ParsePrReference("https://github.com/owner/repo/pull/123") == Ok(ParsedPrUrl("owner", "repo", 123))
  {
    var m := UrlMatch("https://", "", "owner", "repo", "123", "");
    UrlExampleText();
    assert DigitsValue("123") == 123 by {
      assert "123"[..2] == "12";
      assert "12"[..1] == "1";
      assert "1"[..0] == "";
    }
    ParseUrlForm("https://github.com/owner/repo/pull/123", m);
  }

  /** Text after the digit run is ignored: the URL form is anchored only at the start. */
  lemma ParseTrailingExample()
    ensures ParsePrReference("www.github.com/acme/widgets/pull/7/files") == Ok(ParsedPrUrl("acme", "widgets", 7))
  {
    var m := UrlMatch("", "www.", "acme", "widgets", "7", "/files");
    TrailingExampleText();
    assert DigitsValue("7") == 7 by {
      assert "7"[..0] == "";
    }
    ParseUrlForm("www.github.com/acme/widgets/pull/7/files", m);
  }

  /** The short reference of the program's tests: dots and hyphens are kept. */
  lemma ParseShortExample()
    ensures ParsePrReference("org-name/repo-name.js#42") == Ok(ParsedPrUrl("org-name", "repo-name.js", 42))
  {
    var m := ShortMatch("org-name", "repo-name.js", "42");
    assert "org-name/repo-name.js#42" == "org-name" + ("/" + ("repo-name.js" + ("#" + "42")));
    assert DigitsValue("42") == 42 by {
      assert "42"[..1] == "4";
      assert "4"[..0] == "";
    }
    ParseShortForm("org-name/repo-name.js#42", m);
  }

  // ----- truncate -----

  /** `truncate(text, maxLength)`, with `slice`'s rule that a negative end
      counts from the end of the text (reached when `maxLength < 3`). */
  function Truncate(text: string, maxLength: int): (r: string)
    ensures |text| <= maxLength ==> r == text
    ensures |text| > maxLength && maxLength >= 3 ==>
      |r| == maxLength && r == text[..maxLength - 3] + "..."
  {
    if |text| <= maxLength then text
    else Slice(text, 0, maxLength - 3) + "..."
  }

  /** For a positive limit the text comes back unchanged exactly when it fits;
      otherwise the result ends in "..." and never exceeds the limit once the
      limit is at least 3. */
  lemma TruncateUnchangedIff(text: string, maxLength: int)
    requires maxLength >= 1
    ensures Truncate(text, maxLength) == text <==> |text| <= maxLength
    ensures |text| > maxLength ==> Text.IsPrefix("...", Truncate(text, maxLength)[|Truncate(text, maxLength)| - 3..])
  {
    var r := Truncate(text, maxLength);
    if |text| > maxLength {
      var e := SliceIndex(|text|, maxLength - 3);
      assert |r| == e + 3;
      assert e + 3 != |text|;
      assert r[|r| - 3..] == "...";
    }
  }

  /** Below a limit of 3 the negative `slice` end makes the result longer than
      the limit, and with a limit of 0 a text already ending in "..." comes
      back unchanged although it does not fit. */
  lemma TruncateSmallLimits()
    ensures Truncate("hello", 2) == "hell..."
    ensures Truncate("abc...", 0) == "abc..."
  {
    assert Slice("hello", 0, -1) == "hell";
    assert Slice("abc...", 0, -3) == "abc";
  }

  /** The truncations of the program's tests. */
  lemma TruncateExamples()
    ensures Truncate("hello", 10) == "hello"
    ensures Truncate("hello world", 8) == "hello..."
    ensures Truncate("hello", 5) == "hello"
  {
    assert "hello world"[0..5] == "hello";
  }

  // ----- pluralize -----

  /** `pluralize(count, singular, plural?)`: `??` replaces only an absent
      plural, so an explicitly supplied empty plural is returned as is. */
  function Pluralize(count: int, singular: string, plural: Option<string>): (r: string)
    ensures count == 1 ==> r == singular
    ensures count != 1 && plural.Some? ==> r == plural.value
    ensures count != 1 && plural.None? ==> r == singular + "s"
  {
    if count == 1 then singular else plural.GetOr(singular + "s")
  }

  /** The singular comes back exactly when the count is 1, unless the caller
      supplied the singular itself as the plural. */
  lemma PluralizeSingularIff(count: int, singular: string, plural: Option<string>)
    requires plural != Some(singular)
    ensures Pluralize(count, singular, plural) == singular <==> count == 1
  {
    if count != 1 && plural.None? {
      assert |singular + "s"| != |singular|;
    }
  }

  /** The pluralizations of the program's tests. */
  lemma PluralizeExamples()
    ensures Pluralize(1, "file", None) == "file"
    ensures Pluralize(0, "file", None) == "files"
    ensures Pluralize(5, "file", None) == "files"
    ensures Pluralize(2, "person", Some("people")) == "people"
  {}
}

=== FILE: settings.dfy ===
/** The persisted configuration of `src/utils/config.ts` and its credential
    lookups. The store is a value passed in (the on-disk `Conf` file is not
    modelled), and so are the two environment variables. */
module Settings {
  import opened Wrappers

  const DefaultModelId := "claude-sonnet-4-20250514"
  const DefaultMaxFilesPerReview := 50

  /** The stored settings; an absent key is `None`. */
  datatype Store = Store(
    anthropicApiKey: Option<string>,
    githubToken: Option<string>,
    defaultModel: Option<string>,
    maxFilesPerReview: Option<int>)

  /** `ANTHROPIC_API_KEY` and `GITHUB_TOKEN` as the process sees them. */
  datatype Env = Env(anthropicApiKey: Option<string>, githubToken: Option<string>)

  /** A fresh (or cleared) store: only the two schema defaults are present. */
  function InitialStore(): (s: Store)
    ensures s.anthropicApiKey.None? && s.githubToken.None?
    ensures s.defaultModel == Some("claude-sonnet-4-20250514")
    ensures s.maxFilesPerReview == Some(50)
  {
    Store(None, None, Some(DefaultModelId), Some(DefaultMaxFilesPerReview))
  }

  const AnthropicKeyMissing :=
    "Anthropic API key not configured. Run: prism config set anthropicApiKey <key>"
  const GitHubTokenMissing :=
    "GitHub token not configured. Run: prism config set githubToken <token>"

  /** JavaScript truthiness of an optional string: present and non-empty. */
  predicate Truthy(v: Option<string>) {
    v.Some? && v.value != ""
  }

  /** `stored || fromEnv`, then a `missing` error when that is falsy. */
  function Credential(stored: Option<string>, fromEnv: Option<string>, missing: string): (r: Result<string>)
    ensures r.Ok? ==> r.value != ""
    ensures Truthy(stored) ==> r == Ok(stored.value)
    ensures !Truthy(stored) && Truthy(fromEnv) ==> r == Ok(fromEnv.value)
    ensures r.Err? <==> !Truthy(stored) && !Truthy(fromEnv)
    ensures r.Err? ==> r.error == missing
  {
    var key := if Truthy(stored) then stored else fromEnv;
    if !Truthy(key) then Err(missing) else Ok(key.value)
  }

  /** `getAnthropicApiKey`. */
  function AnthropicApiKey(store: Store, env: Env): (r: Result<string>)
    ensures r.Ok? ==> r.value != "" && (r.value == store.anthropicApiKey.GetOr("") || r.value == env.anthropicApiKey.GetOr(""))
    ensures Truthy(store.anthropicApiKey) ==> r == Ok(store.anthropicApiKey.value)
    ensures !Truthy(store.anthropicApiKey) && Truthy(env.anthropicApiKey) ==> r == Ok(env.anthropicApiKey.value)
    ensures r.Err? <==> !Truthy(store.anthropicApiKey) && !Truthy(env.anthropicApiKey)
    ensures r.Err? ==> r.error == AnthropicKeyMissing
  {
    Credential(store.anthropicApiKey, env.anthropicApiKey, AnthropicKeyMissing)
  }

  /** `getGitHubToken`. */
  function GitHubToken(store: Store, env: Env): (r: Result<string>)
    ensures r.Ok? ==> r.value != "" && (r.value == store.githubToken.GetOr("") || r.value == env.githubToken.GetOr(""))
    ensures Truthy(store.githubToken) ==> r == Ok(store.githubToken.value)
    ensures !Truthy(store.githubToken) && Truthy(env.githubToken) ==> r == Ok(env.githubToken.value)
    ensures r.Err? <==> !Truthy(store.githubToken) && !Truthy(env.githubToken)
    ensures r.Err? ==> r.error == GitHubTokenMissing
  {
    Credential(store.githubToken, env.githubToken, GitHubTokenMissing)
  }

  /** A stored value wins over the environment only when it is non-empty:
      an empty stored key falls through to the environment. */
  lemma EmptyStoredFallsThrough(store: Store, env: Env)
    requires store.anthropicApiKey == Some("")
    ensures AnthropicApiKey(store, env) == AnthropicApiKey(store.(anthropicApiKey := None), env)
  {}
}

=== FILE: text.dfy ===
/** String helpers shared by the model. From the program: substrings
    (`includes`), `Array.prototype.join` and `String.prototype.slice` with its
    negative-index rules. The model's own: prefixes and character search, used
    to match the program's regular expressions by hand, and decimal digits
    (`parseInt` on a digit run and number-to-string in template literals).
    Lengths and indices count Unicode characters, not UTF-16 code units. */
module Text {
  import opened Wrappers

  /** `p` is a prefix of `s`. */
  predicate IsPrefix(p: string, s: string) {
    |p| <= |s| && s[..|p|] == p
  }

  /** A prefix stays a prefix when text is appended. */
  lemma PrefixExtend(p: string, s: string, t: string)
    requires IsPrefix(p, s)
    ensures IsPrefix(p, s + t)
  {
    assert (s + t)[..|p|] == s[..|p|];
  }

  /** `s` without its prefix `p`, when `s` starts with `p`. */
  function Peel(p: string, s: string): (r: Option<string>)
    ensures r.Some? <==> IsPrefix(p, s)
    ensures r.Some? ==> s == p + r.value
  {
    if IsPrefix(p, s) then Some(s[|p|..]) else None
  }

  lemma PeelConcat(p: string, t: string)
    ensures Peel(p, p + t) == Some(t)
  {
    assert (p + t)[..|p|] == p;
    assert (p + t)[|p|..] == t;
  }

  /** A single differing position rules out a prefix. */
  lemma NotPrefixAt(p: string, s: string, i: nat)
    requires i < |p| && i < |s| && p[i] != s[i]
    ensures !IsPrefix(p, s)
  {
    if |p| <= |s| {
      assert s[..|p|][i] == s[i];
    }
  }

  /** `t` occurs in `s` as a contiguous substring (`s.includes(t)`). */
  predicate Contains(s: string, t: string) {
    exists i :: 0 <= i <= |s| - |t| && IsPrefix(t, s[i..])
  }

  lemma ContainsMiddle(a: string, t: string, b: string)
    ensures Contains(a + t + b, t)
  {
    var s := a + t + b;
    assert s[|a|..][..|t|] == t;
    assert IsPrefix(t, s[|a|..]);
  }

  /** Occurrence is preserved when text is added on either side. */
  lemma ContainsWithin(a: string, mid: string, b: string, t: string)
    requires Contains(mid, t)
    ensures Contains(a + mid + b, t)
  {
    var i :| 0 <= i <= |mid| - |t| && IsPrefix(t, mid[i..]);
    var s := a + mid + b;
    assert s[|a| + i..][..|t|] == mid[i..][..|t|];
    assert IsPrefix(t, s[|a| + i..]);
  }

  /** A text ends with itself as a substring. */
  lemma ContainsSuffix(a: string, t: string)
    ensures Contains(a + t, t)
  {
    var s := a + t;
    assert s[|a|..] == t;
    assert IsPrefix(t, s[|a|..]);
  }

  /** Text appended on the right keeps an occurrence. */
  lemma ContainsExtendRight(s: string, b: string, t: string)
    requires Contains(s, t)
    ensures Contains(s + b, t)
  {
    var i :| 0 <= i <= |s| - |t| && IsPrefix(t, s[i..]);
    assert (s + b)[i..][..|t|] == s[i..][..|t|];
    assert IsPrefix(t, (s + b)[i..]);
  }

  /** Text prepended on the left keeps an occurrence. */
  lemma ContainsExtendLeft(a: string, s: string, t: string)
    requires Contains(s, t)
    ensures Contains(a + s, t)
  {
    var i :| 0 <= i <= |s| - |t| && IsPrefix(t, s[i..]);
    assert (a + s)[|a| + i..] == s[i..];
    assert IsPrefix(t, (a + s)[|a| + i..]);
  }

  /** `parts.join(sep)`. */
  function Join(parts: seq<string>, sep: string): string
  {
    if |parts| == 0 then ""
    else if |parts| == 1 then parts[0]
    else parts[0] + sep + Join(parts[1..], sep)
  }

  /** Every part of a join occurs in the joined text. */
  lemma {:induction false} JoinContains(parts: seq<string>, sep: string, k: nat)
    requires k < |parts|
    ensures Contains(Join(parts, sep), parts[k])
  {
    if |parts| == 1 {
      ContainsMiddle("", parts[0], "");
      assert "" + parts[0] + "" == parts[0];
    } else if k == 0 {
      ContainsMiddle("", parts[0], sep + Join(parts[1..], sep));
      assert "" + parts[0] + (sep + Join(parts[1..], sep)) == Join(parts, sep);
    } else {
      JoinContains(parts[1..], sep, k - 1);
      ContainsWithin(parts[0] + sep, Join(parts[1..], sep), "", parts[k]);
      assert parts[0] + sep + Join(parts[1..], sep) + "" == Join(parts, sep);
    }
  }

  /** A join opens with its first part. */
  lemma JoinStartsWith(parts: seq<string>, sep: string)
    ensures |parts| > 0 ==> IsPrefix(parts[0], Join(parts, sep))
  {
    if |parts| > 1 {
      PrefixExtend(parts[0], parts[0], sep + Join(parts[1..], sep));
      assert parts[0] + (sep + Join(parts[1..], sep)) == Join(parts, sep);
    }
  }

  /** Every part of a join occurs in the joined text, all at once. */
  lemma JoinContainsAll(parts: seq<string>, sep: string)
    ensures forall k :: 0 <= k < |parts| ==> Contains(Join(parts, sep), parts[k])
  {
    forall k | 0 <= k < |parts|
      ensures Contains(Join(parts, sep), parts[k])
    {
      JoinContains(parts, sep, k);
    }
  }

  /** Index of the first `c` in `s`, or None. */
  function FirstIndexOf(s: string, c: char): (r: Option<nat>)
    ensures r.Some? ==> r.value < |s| && s[r.value] == c
    ensures r.Some? ==> forall k :: 0 <= k < r.value ==> s[k] != c
    ensures r.None? ==> forall k :: 0 <= k < |s| ==> s[k] != c
  {
    if |s| == 0 then None
    else if s[0] == c then Some(0)
    else match FirstIndexOf(s[1..], c)
      case None => None
      case Some(k) => Some(k + 1)
  }

  /** Index of the last `c` in `s`, or None. */
  function LastIndexOf(s: string, c: char): (r: Option<nat>)
    ensures r.Some? ==> r.value < |s| && s[r.value] == c
    ensures r.Some? ==> forall k :: r.value < k < |s| ==> s[k] != c
    ensures r.None? ==> forall k :: 0 <= k < |s| ==> s[k] != c
  {
    if |s| == 0 then None
    else if s[|s| - 1] == c then Some(|s| - 1)
    else LastIndexOf(s[..|s| - 1], c)
  }

  /** Where a `slice` argument lands in a string of length `len`: a negative
      index counts from the end, and the result is clamped to `[0, len]`. */
  function SliceIndex(len: nat, x: int): (r: nat)
    ensures r <= len
    ensures 0 <= x <= len ==> r == x
    ensures x < 0 && len + x >= 0 ==> r == len + x
  {
    if x < 0 then (if len + x < 0 then 0 else len + x)
    else if x > len then len
    else x
  }

  /** `s.slice(start, end)`: empty when the start lands at or after the end. */
  function Slice(s: string, start: int, end: int): (r: string)
    ensures |r| <= |s|
    ensures var from := SliceIndex(|s|, start);
            var to := SliceIndex(|s|, end);
            if from < to then r == s[from..to] else r == ""
  {
    var from := SliceIndex(|s|, start);
    var to := SliceIndex(|s|, end);
    if from < to then s[from..to] else ""
  }

  // ----- decimal digits -----

  predicate IsDigit(c: char) {
    '0' <= c <= '9'
  }

  predicate AllDigits(s: string) {
    forall i :: 0 <= i < |s| ==> IsDigit(s[i])
  }

  function DigitValue(c: char): nat
    requires IsDigit(c)
  {
    (c as int) - ('0' as int)
  }

  function DigitChar(d: nat): (c: char)
    requires d < 10
    ensures IsDigit(c) && DigitValue(c) == d
  {
    (('0' as int) + d) as char
  }

  /** The base-10 value of a run of digits (leading zeros allowed). */
  function DigitsValue(s: string): nat
    requires AllDigits(s)
  {
    if |s| == 0 then 0
    else 10 * DigitsValue(s[..|s| - 1]) + DigitValue(s[|s| - 1])
  }

  /** Length of the longest prefix of `s` made of digits (what `\d+` and
      `parseInt` consume). */
  function DigitRun(s: string): (n: nat)
    ensures n <= |s|
    ensures AllDigits(s[..n])
    ensures n < |s| ==> !IsDigit(s[n])
  {
    if |s| == 0 || !IsDigit(s[0]) then 0
    else
      var k := DigitRun(s[1..]);
      assert s[..k + 1] == [s[0]] + s[1..][..k];
      k + 1
  }

  /** The decimal text of a number, as `${n}` renders it. */
  function NatToString(n: nat): (r: string)
    ensures |r| > 0 && AllDigits(r)
    ensures n > 0 ==> r[0] != '0'
  {
    if n < 10 then [DigitChar(n)]
    else NatToString(n / 10) + [DigitChar(n % 10)]
  }

  /** Reading back the decimal text of a number gives the number. */
  lemma {:induction false} NatToStringRoundTrip(n: nat)
    ensures DigitsValue(NatToString(n)) == n
  {
    var s := NatToString(n);
    if n < 10 {
      assert s[..0] == [];
    } else {
      NatToStringRoundTrip(n / 10);
      assert s[..|s| - 1] == NatToString(n / 10);
    }
  }

  /** A digit run is read up to the first non-digit. */
  lemma DigitRunOf(digits: string, rest: string)
    requires AllDigits(digits)
    requires |rest| == 0 || !IsDigit(rest[0])
    ensures DigitRun(digits + rest) == |digits|
  {
    var s := digits + rest;
    assert forall k :: 0 <= k < |digits| ==> s[k] == digits[k];
    assert |digits| < |s| ==> s[|digits|] == rest[0];
  }
}

=== FILE: types.dfy ===
/** The review model: pull requests, their changed files, and the structured
    review (risks, suggestions, test gaps) the analyzer produces.

    Each label union of the program (file status, risk severity, suggestion
    category, test-gap priority) is a datatype with its wire label and a
    parser proved to accept exactly those labels. The records themselves keep
    the label as the string that arrived: the program casts GitHub's file
    status and the language model's labels to the union without checking
    them, so a record may carry a label outside the union. `WellTyped*`
    states the declared typing, and `WellTypedIffParsable` shows it is the
    same as every label reading as its union; nothing in the pipeline
    establishes it. */
module Types {
  import opened Wrappers

  // ----- file status -----

  datatype FileStatus = Added | Removed | Modified | Renamed

  const StatusLabels: set<string> := {"added", "removed", "modified", "renamed"}

  function StatusLabel(s: FileStatus): string {
    match s
    case Added => "added"
    case Removed => "removed"
    case Modified => "modified"
    case Renamed => "renamed"
  }

  /** Reads a status label; accepts exactly the four labels of the union. */
  function ParseStatus(name: string): (r: Option<FileStatus>)
    ensures r.Some? <==> name in StatusLabels
    ensures r.Some? ==> StatusLabel(r.value) == name
  {
    if name == "added" then Some(Added)
    else if name == "removed" then Some(Removed)
    else if name == "modified" then Some(Modified)
    else if name == "renamed" then Some(Renamed)
    else None
  }

  lemma StatusRoundTrip(s: FileStatus)
    ensures ParseStatus(StatusLabel(s)) == Some(s)
  {}

  // ----- risk severity -----

  datatype Severity = Critical | High | Medium | Low

  const SeverityLabels: set<string> := {"critical", "high", "medium", "low"}

  function SeverityLabel(s: Severity): string {
    match s
    case Critical => "critical"
    case High => "high"
    case Medium => "medium"
    case Low => "low"
  }

  /** Reads a severity label; accepts exactly the four labels of the union. */
  function ParseSeverity(name: string): (r: Option<Severity>)
    ensures r.Some? <==> name in SeverityLabels
    ensures r.Some? ==> SeverityLabel(r.value) == name
  {
    if name == "critical" then Some(Critical)
    else if name == "high" then Some(High)
    else if name == "medium" then Some(Medium)
    else if name == "low" then Some(Low)
    else None
  }

  lemma SeverityRoundTrip(s: Severity)
    ensures ParseSeverity(SeverityLabel(s)) == Some(s)
  {}

  // ----- suggestion category -----

  datatype Category = Performance | Security | Maintainability | BestPractice | Style

  const CategoryLabels: set<string> :=
    {"performance", "security", "maintainability", "best-practice", "style"}

  function CategoryLabel(c: Category): string {
    match c
    case Performance => "performance"
    case Security => "security"
    case Maintainability => "maintainability"
    case BestPractice => "best-practice"
    case Style => "style"
  }

  /** Reads a category label; accepts exactly the five labels of the union. */
  function ParseCategory(name: string): (r: Option<Category>)
    ensures r.Some? <==> name in CategoryLabels
    ensures r.Some? ==> CategoryLabel(r.value) == name
  {
    if name == "performance" then Some(Performance)
    else if name == "security" then Some(Security)
    else if name == "maintainability" then Some(Maintainability)
    else if name == "best-practice" then Some(BestPractice)
    else if name == "style" then Some(Style)
    else None
  }

  lemma CategoryRoundTrip(c: Category)
    ensures ParseCategory(CategoryLabel(c)) == Some(c)
  {}

  // ----- test-gap priority -----

  datatype Priority = PriorityHigh | PriorityMedium | PriorityLow

  const PriorityLabels: set<string> := {"high", "medium", "low"}

  function PriorityLabel(p: Priority): string {
    match p
    case PriorityHigh => "high"
    case PriorityMedium => "medium"
    case PriorityLow => "low"
  }

  /** Reads a priority label; accepts exactly the three labels of the union. */
  function ParsePriority(name: string): (r: Option<Priority>)
    ensures r.Some? <==> name in PriorityLabels
    ensures r.Some? ==> PriorityLabel(r.value) == name
  {
    if name == "high" then Some(PriorityHigh)
    else if name == "medium" then Some(PriorityMedium)
    else if name == "low" then Some(PriorityLow)
    else None
  }

  lemma PriorityRoundTrip(p: Priority)
    ensures ParsePriority(PriorityLabel(p)) == Some(p)
  {}

  // ----- records -----

  /** A changed file. Only `patch` (absent for binary or oversized diffs) and
      `previousFilename` are optional. */
  datatype PullRequestFile = PullRequestFile(
    filename: string,
    status: string,
    additions: nat,
    deletions: nat,
    patch: Option<string>,
    previousFilename: Option<string>)

  datatype PullRequest = PullRequest(
    number: nat,
    title: string,
    description: string,
    author: string,
    baseBranch: string,
    headBranch: string,
    url: string,
    additions: nat,
    deletions: nat,
    changedFiles: nat,
    files: seq<PullRequestFile>)

  datatype Risk = Risk(
    severity: string,
    file: string,
    line: Option<int>,
    description: string,
    suggestion: Option<string>)

  datatype Suggestion = Suggestion(
    file: string,
    line: Option<int>,
    category: string,
    description: string,
    code: Option<string>)

  /** `suggestedTests` keeps the order the model gave. */
  datatype TestGap = TestGap(
    file: string,
    description: string,
    priority: string,
    suggestedTests: seq<string>)

  /** The finding lists are sequences, never absent: "no findings" is `[]`.
      `generatedAt` is the clock reading taken when the result was built. */
  datatype ReviewResult = ReviewResult(
    pr: PullRequest,
    summary: string,
    risks: seq<Risk>,
    suggestions: seq<Suggestion>,
    testGaps: seq<TestGap>,
    generatedAt: int,
    modelUsed: string)

  /** The locator a PR reference parses to. */
  datatype ParsedPrUrl = ParsedPrUrl(owner: string, repo: string, number: nat)

  // ----- declared typing of the labels -----

  predicate WellTypedPullRequest(pr: PullRequest) {
    forall f :: f in pr.files ==> f.status in StatusLabels
  }

  predicate WellTypedResult(r: ReviewResult) {
    && WellTypedPullRequest(r.pr)
    && (forall x :: x in r.risks ==> x.severity in SeverityLabels)
    && (forall x :: x in r.suggestions ==> x.category in CategoryLabels)
    && (forall x :: x in r.testGaps ==> x.priority in PriorityLabels)
  }

  /** The declared typing is exactly "every label reads as its union". */
  lemma WellTypedIffParsable(r: ReviewResult)
    ensures WellTypedPullRequest(r.pr) <==> forall f :: f in r.pr.files ==> ParseStatus(f.status).Some?
    ensures WellTypedResult(r) <==>
      && (forall f :: f in r.pr.files ==> ParseStatus(f.status).Some?)
      && (forall x :: x in r.risks ==> ParseSeverity(x.severity).Some?)
      && (forall x :: x in r.suggestions ==> ParseCategory(x.category).Some?)
      && (forall x :: x in r.testGaps ==> ParsePriority(x.priority).Some?)
  {}
}

=== FILE: wrappers.dfy ===
/** Option and Result types used throughout the model.
    `Result` carries the message of the JavaScript `Error` that the source
    would throw; every failure in the program is such a message. */
module Wrappers {

  datatype Option<+T> = None | Some(value: T) {

    /** The wrapped value, or `default` when absent (the `??` operator). */
    function GetOr(default: T): T {
      match this
      case Some(v) => v
      case None => default
    }
  }

  datatype Result<+T> = Ok(value: T) | Err(error: string)
}
